=== FILE: README.md ===
# Sky-mask refinement: the guided upsampler, in exact arithmetic

This project models the numerical core of the sky-segmentation model's post-processing in
`mpsfm/extraction/imagewise/mask/models/skyseg.py`. The segmentation network emits a sky
probability at low resolution. Each probability becomes a confidence weight (`bias`,
`probability_to_confidence`). An edge-aware guided upsampler (`guided_upsample`) then lifts
the probability map to the full resolution of the colour image. The upsampler is built from:

- an anti-aliased image pyramid (`downsample2_antialiased`, `resize_helper`, `resize`);
- a confidence-weighted downsample (`weighted_downsample`);
- per-pixel 3x3 symmetric algebra: `outer_product_images`, the diagonal regularisation and
  the LDL^T solver `solve_image_ldl3`;
- a multi-step upsampler (`smooth_upsample`).

Arrays are `Fields.Field` values: a height, a width, a channel count and a function from
(row, column, channel) to an exact real. The two OpenCV primitives, `cv2.sepFilter2D` and
`cv2.resize`, are parameters: `Pyramid.Backend` holds their value functions. The shape of
each call's output is fixed by construction, as OpenCV fixes it. Their numerical behaviour is
stated as two laws, and only the lemmas that need a law assume it:

- `Pyramid.Averages`: filtering with an averaging kernel, and bilinear resizing, keep every
  bound and keep positivity.
- `Pyramid.Extensional`: both primitives depend only on the values inside the extent.

`Pyramid.WitnessIsLawful` exhibits a backend that meets both laws, so the laws are
consistent.

Modules, one file each:

- `fields.dfy`: fields, channel slicing and concatenation, channel-wise arithmetic.
- `reals.dfy`: small facts about real division.
- `rounding.dfy`: `np.round` (round half to even).
- `confidence.dfy`: `bias` and `probability_to_confidence`.
- `sym3.dfy`: the packed symmetric 3x3 algebra and the LDL^T solve.
- `pyramid.dfy`: the pyramid, `resize` and `smooth_upsample`.
- `results.dfy`: the error cases.
- `weighted.dfy`: `weighted_downsample`.
- `guided.dfy`: `outer_product_images` on images, the per-pixel solve and `guided_upsample`.

Two details of the code that the model follows as written:

- `smooth_upsample` computes each step's target as `round(k * shape * (size / shape) / n)`.
  The shape cancels, so the schedule is LINEAR in the step: `round(k * size / n)`. The model
  computes the code's expression (`Pyramid.StepValue`) and proves that it is linear
  (`Pyramid.StepTarget`).
- `weighted_downsample` aligns X to the confidence only when `X.shape[1] > confidence.shape[1]`,
  that is, it compares the widths alone. The model compares widths only (`Weighted.Aligned`).

## Model

| member | source | states |
|---|---|---|
| Confidence.Bias | mpsfm/extraction/imagewise/mask/models/skyseg.py:13-15 | the result times the denominator `((1/b) - 2)(1 - x) + 1` is x: it is x divided by that denominator wherever the denominator is nonzero |
| Confidence.DefaultDenominator | mpsfm/extraction/imagewise/mask/models/skyseg.py:13-15 | with b = 0.8 the denominator of `bias` is 0.25 + 0.75 x, so it is at least 0.25 on x >= 0 and `bias` is always defined there |
| Confidence.BiasEndpoints | mpsfm/extraction/imagewise/mask/models/skyseg.py:13-15 | `bias` fixes 0 and 1 for every 0 < b < 1 |
| Confidence.BiasMonotone | mpsfm/extraction/imagewise/mask/models/skyseg.py:13-15 | `bias` is non-decreasing in x wherever its denominator is positive |
| Confidence.BiasUnitRange | mpsfm/extraction/imagewise/mask/models/skyseg.py:13-15 | `bias` maps [0, 1] into [0, 1] for 0 < b < 1 |
| Confidence.ProbabilityToConfidence | mpsfm/extraction/imagewise/mask/models/skyseg.py:18-29 | every confidence is at least the 0.01 floor; a probability inside the band [low, high] gets exactly the floor |
| Confidence.BandDistance | mpsfm/extraction/imagewise/mask/models/skyseg.py:21-24 | the value handed to `bias`: above the band it times (1 - high) is p - high; below the band (and not above it) it times low is low - p; inside the band it is 0 |
| Confidence.BandDistancePositive | mpsfm/extraction/imagewise/mask/models/skyseg.py:21-24 | outside the band, the normalised distance handed to `bias` is positive |
| Confidence.BandDistanceUnit | mpsfm/extraction/imagewise/mask/models/skyseg.py:21-24 | for a probability in [0, 1], that distance lies in [0, 1] |
| Confidence.ConfidenceAtMostOne | mpsfm/extraction/imagewise/mask/models/skyseg.py:18-29 | a probability in [0, 1] gets a confidence in [0.01, 1] |
| Confidence.ConfidenceMonotoneAbove | mpsfm/extraction/imagewise/mask/models/skyseg.py:22-27 | above the band, confidence does not decrease as the probability moves away from it |
| Confidence.ConfidenceMonotoneBelow | mpsfm/extraction/imagewise/mask/models/skyseg.py:21-26 | below the band, confidence does not decrease as the probability moves away from it |
| Confidence.ConfidenceField | mpsfm/extraction/imagewise/mask/models/skyseg.py:18-29 | the whole-map transform keeps the shape, is strictly positive everywhere, lies in [0.01, 1] for probabilities in [0, 1], and is the floor wherever the probability is inside [0.3, 0.5] |
| Rounding.RoundHalfEven | mpsfm/extraction/imagewise/mask/models/skyseg.py:72 | `np.round`: the result is within 1/2 of x, and even on an exact tie |
| Rounding.RoundCharacterisation | mpsfm/extraction/imagewise/mask/models/skyseg.py:72 | that contract determines the result: any integer within 1/2 of x, even on a tie, is the rounded value |
| Rounding.RoundMonotone | mpsfm/extraction/imagewise/mask/models/skyseg.py:72 | rounding is monotone |
| Sym3.PackedIndex | mpsfm/extraction/imagewise/mask/models/skyseg.py:60 | the packed channel of upper-triangular position (i, j) is the one `np.triu_indices(3)` lists at that position |
| Sym3.TriuEnumeration | mpsfm/extraction/imagewise/mask/models/skyseg.py:60-61 | the triangular enumeration and the packed index are inverse to each other, so every upper-triangular entry has exactly one channel |
| Sym3.PackedIsEntry | mpsfm/extraction/imagewise/mask/models/skyseg.py:60-62 | packed channel k is the matrix entry at its triangular position |
| Sym3.DiagonalChannels | mpsfm/extraction/imagewise/mask/models/skyseg.py:135-136 | channels 0, 3 and 5 are exactly the diagonal ones |
| Sym3.Outer | mpsfm/extraction/imagewise/mask/models/skyseg.py:54-62 | channel k of the packed outer product is x[row k] * y[column k] |
| Sym3.OuterSelfReassembles | mpsfm/extraction/imagewise/mask/models/skyseg.py:54-62 | unpacking the packed x x^T gives back every entry of x x^T, lower triangle included |
| Sym3.OuterExample | mpsfm/extraction/imagewise/mask/models/skyseg.py:54-62 | x = [1, 2, 3] packs to [1, 2, 3, 4, 6, 9] |
| Sym3.Regularize | mpsfm/extraction/imagewise/mask/models/skyseg.py:135-136 | read as a matrix, the regularisation adds diag(eps_luma^2, eps_chroma^2, eps_chroma^2) and leaves every off-diagonal entry unchanged |
| Sym3.L12 | mpsfm/extraction/imagewise/mask/models/skyseg.py:80-81 | the multiplier reproduces the (1, 2) entry: l12 d1 = A12 |
| Sym3.D2 | mpsfm/extraction/imagewise/mask/models/skyseg.py:80-82 | the second pivot makes d1 d2 the leading 2x2 minor A11 A22 - A12^2 |
| Sym3.L13 | mpsfm/extraction/imagewise/mask/models/skyseg.py:80-83 | the multiplier reproduces the (1, 3) entry: l13 d1 = A13 |
| Sym3.L23 | mpsfm/extraction/imagewise/mask/models/skyseg.py:83-84 | the multiplier completes the (2, 3) entry: l23 d2 = A23 - l13 A12 |
| Sym3.D3 | mpsfm/extraction/imagewise/mask/models/skyseg.py:80-85 | the third pivot makes d1 d2 d3 the determinant of A |
| Sym3.LdlFactorisation | mpsfm/extraction/imagewise/mask/models/skyseg.py:80-85 | the pivots and multipliers factor the matrix as A = L D L^T, entry by entry |
| Sym3.Substitute | mpsfm/extraction/imagewise/mask/models/skyseg.py:86-91 | the substituted vector meets the three triangular systems of the factorisation: d1 (x1 + l12 x2 + l13 x3) = b1, d2 (x2 + l23 x3) = b2 - l12 b1 and d3 x3 = b3 - l13 b1 - l23 (b2 - l12 b1) |
| Sym3.Solve | mpsfm/extraction/imagewise/mask/models/skyseg.py:77-92 | when the three pivots are nonzero, the substitution result x satisfies A x = b |
| Sym3.SolveUnique | mpsfm/extraction/imagewise/mask/models/skyseg.py:77-92 | it is the only solution: any z with A z = b equals it |
| Sym3.SolvableIffMinors | mpsfm/extraction/imagewise/mask/models/skyseg.py:80-92 | the solve's divisions are all defined iff the leading minors are nonzero; a matrix with positive leading minors has positive pivots |
| Sym3.FlatRegionFit | mpsfm/extraction/imagewise/mask/models/skyseg.py:132-138 | where the covariance and the cross term are zero, the regularised system is solvable and its solution is zero |
| Pyramid.KernelAverages | mpsfm/extraction/imagewise/mask/models/skyseg.py:33 | the kernel [1, 3, 3, 1] / 8 has non-negative taps that sum to 1, and it is symmetric |
| Pyramid.EverySecond | mpsfm/extraction/imagewise/mask/models/skyseg.py:35 | `dst[::2, ::2]` has ceil(h/2) x ceil(w/2) pixels, and pixel (i, j) is pixel (2i, 2j) of the input |
| Pyramid.Downsample2 | mpsfm/extraction/imagewise/mask/models/skyseg.py:32-35 | halving yields ceil(h/2) x ceil(w/2) with the same channels |
| Pyramid.Downsample2Bounds | mpsfm/extraction/imagewise/mask/models/skyseg.py:32-35 | under the averaging law, halving keeps every bound and positivity |
| Pyramid.Downsample2Equiv | mpsfm/extraction/imagewise/mask/models/skyseg.py:32-35 | halving depends only on the values inside the extent |
| Pyramid.PyramidLevel | mpsfm/extraction/imagewise/mask/models/skyseg.py:40-41 | the halving loop stops at a field on which its condition fails (some dimension below twice the target), with the input's channels, no larger than the input, and non-empty when the input was |
| Pyramid.PyramidLevelShape | mpsfm/extraction/imagewise/mask/models/skyseg.py:40-41 | the halving loop stops once some dimension is below twice the target. It halves exactly Halvings(...) times, each time with both dimensions at least twice the target. Channels are kept and a non-empty field stays non-empty |
| Pyramid.PyramidLevelBounds | mpsfm/extraction/imagewise/mask/models/skyseg.py:40-41 | the halving loop keeps every bound and positivity |
| Pyramid.PyramidLevelEquiv | mpsfm/extraction/imagewise/mask/models/skyseg.py:40-41 | the halving loop depends only on the values inside the extent |
| Pyramid.ResizeHelper | mpsfm/extraction/imagewise/mask/models/skyseg.py:38-42 | the loop of `resize_helper` terminates (its height strictly decreases) and ends at the pyramid level; the final resize yields exactly the target shape with the input's channels |
| Pyramid.Resize | mpsfm/extraction/imagewise/mask/models/skyseg.py:45-51 | `resize` yields exactly the target shape with the input's channels, for 1 to 7 channels |
| Pyramid.ResizeKeepsChannelOrder | mpsfm/extraction/imagewise/mask/models/skyseg.py:48-51 | above 4 channels, channels [0, 3) of the result are the resize of input channels [0, 3), and channels [3, C) that of input channels [3, C) |
| Pyramid.ResizeBounds | mpsfm/extraction/imagewise/mask/models/skyseg.py:45-51 | `resize` keeps every bound and positivity |
| Pyramid.ResizeEquiv | mpsfm/extraction/imagewise/mask/models/skyseg.py:45-51 | `resize` depends only on the values inside the extent |
| Pyramid.DefaultSteps | mpsfm/extraction/imagewise/mask/models/skyseg.py:66-68 | the default step count is at least 1; it is the rounded value of log4ratio when that rounds to at least 1, and 1 whenever log4ratio < 1.5 |
| Pyramid.StepValue | mpsfm/extraction/imagewise/mask/models/skyseg.py:69-72 | the unrounded target of step k, computed as `k * shape * (size / shape) / n`, is k * size / n: the shape cancels |
| Pyramid.StepTarget | mpsfm/extraction/imagewise/mask/models/skyseg.py:69-72 | step k targets round(k * size / n), rounded half to even, whatever the input's shape |
| Pyramid.ScheduleMonotone | mpsfm/extraction/imagewise/mask/models/skyseg.py:71-72 | later steps never target a smaller size |
| Pyramid.ScheduleLast | mpsfm/extraction/imagewise/mask/models/skyseg.py:71-72 | the last step lands exactly on the requested size, whatever the input's shape |
| Pyramid.ScheduleBounds | mpsfm/extraction/imagewise/mask/models/skyseg.py:71-72 | when 2 size > n, every step targets between 1 and the final size |
| Pyramid.Schedule | mpsfm/extraction/imagewise/mask/models/skyseg.py:69-73 | the loop runs exactly n steps and step k, for k from 1 to n, targets `StepTarget(k)`; the targets never decrease from one step to the next, the last one is the requested size, and when 2 size > n every target lies in [1, size] |
| Pyramid.SmoothUpsample | mpsfm/extraction/imagewise/mask/models/skyseg.py:65-74 | n resizes along the schedules of both dimensions, ending at exactly the requested size with the input's channels |
| Pyramid.SmoothSingleStep | mpsfm/extraction/imagewise/mask/models/skyseg.py:65-74 | with one step, `smooth_upsample` is a single `resize` to the final size |
| Pyramid.SmoothBounds | mpsfm/extraction/imagewise/mask/models/skyseg.py:65-74 | `smooth_upsample` keeps every bound and positivity |
| Pyramid.SmoothEquiv | mpsfm/extraction/imagewise/mask/models/skyseg.py:65-74 | `smooth_upsample` depends only on the values inside the extent |
| Weighted.TargetOf | mpsfm/extraction/imagewise/mask/models/skyseg.py:96-97 | a given `target_size` is used as it is; otherwise each dimension is the shape over `scale`, rounded: within 1/2 of it, and even on a tie |
| Weighted.Aligned | mpsfm/extraction/imagewise/mask/models/skyseg.py:98-99 | a field wider than the confidence is resized to the confidence's shape; otherwise it is left unchanged |
| Weighted.Quotient | mpsfm/extraction/imagewise/mask/models/skyseg.py:100-106 | at every pixel and channel, the quotient times the one-channel denominator is the numerator; a zero denominator gives 0 |
| Weighted.WeightedDownsample | mpsfm/extraction/imagewise/mask/models/skyseg.py:95-106 | fails (shape mismatch) iff the aligned field and the confidence still differ in shape. Otherwise the output has the target size, computed before alignment, and the input's channels, and output times resized confidence equals the resized product, on every channel |
| Weighted.WeightedUnitWeights | mpsfm/extraction/imagewise/mask/models/skyseg.py:95-106 | with a confidence of 1 everywhere the weighting drops out: the result is the plain resize of the aligned field |
| Guided.OuterProductImages | mpsfm/extraction/imagewise/mask/models/skyseg.py:54-62 | the three-channel check comes first; shapes must then agree; every output pixel is the packed outer product of the two input pixels |
| Guided.OuterImagesChannels | mpsfm/extraction/imagewise/mask/models/skyseg.py:54-62 | output channel k at a pixel is X[row k] * Y[column k] there |
| Guided.OuterImagesExample | mpsfm/extraction/imagewise/mask/models/skyseg.py:54-62 | a pixel [1, 2, 3] gives channels [1, 2, 3, 4, 6, 9] |
| Guided.RegularizeField | mpsfm/extraction/imagewise/mask/models/skyseg.py:135-136 | every pixel's matrix is regularised, and the off-diagonal channels are unchanged |
| Guided.CheckSolvable | mpsfm/extraction/imagewise/mask/models/skyseg.py:80-92 | the scan reports true iff every pixel's pivots are nonzero |
| Guided.SolveImage | mpsfm/extraction/imagewise/mask/models/skyseg.py:77-92 | applied to images: at every pixel the result solves covariance x = cross |
| Guided.SolveImageUnique | mpsfm/extraction/imagewise/mask/models/skyseg.py:77-92 | any image that solves every pixel's system equals the one computed |
| Guided.ClipMonotoneIdempotent | mpsfm/extraction/imagewise/mask/models/skyseg.py:143-144 | clipping is monotone and idempotent |
| Guided.ClipField | mpsfm/extraction/imagewise/mask/models/skyseg.py:143-144 | the clipped field has the input's shape and lies in [0, 1]; each value is the input's value clipped, so a field already in [0, 1] comes back unchanged |
| Guided.AlignSource | mpsfm/extraction/imagewise/mask/models/skyseg.py:120-121 | a source lower or narrower than the reference is resized to the reference's height and width; any other source is kept as it is; either way it stays scalar and non-empty |
| Guided.SmallShape | mpsfm/extraction/imagewise/mask/models/skyseg.py:126-127 | the coarse size is the reference's height and width over the kernel size, each rounded to within 1/2 and to the even neighbour on a tie, as `np.round` does |
| Guided.SmallShapeTies | mpsfm/extraction/imagewise/mask/models/skyseg.py:126-127 | with the kernel of 256, a reference 128 high and 384 wide has a coarse size of 0 x 2: both ties go to the even neighbour |
| Guided.GuidedUpsample | mpsfm/extraction/imagewise/mask/models/skyseg.py:109-145 | fails in the source's order: a reference without 3 channels; a given confidence not of the aligned source's shape; an aligned source not of the reference's height and width; a coarse size with a 0 in it; a coarse grid of one row or one column; a singular coarse pixel. The first five are each stated as an iff. The singular case is reported exactly when the regularised coarse covariance of this run (any covariance meeting `Downsampled` and `Covariance` on these inputs) has a zero pivot, and the error carries such a covariance. On success every stage holds: the aligned source, the weights, the four weighted downsamples, the regularised covariance and cross term, the solved affine model and residual, their smooth upsamples, and the output a . reference + residual, clipped to [0, 1] when asked |
| Guided.CoarseDeterministic | mpsfm/extraction/imagewise/mask/models/skyseg.py:126-136 | two runs on the same aligned source and weights have the same coarse moments, and the same regularised matrix and cross term at every coarse pixel; so whether every pixel can be solved is decided by the inputs alone |
| Guided.Fitted | mpsfm/extraction/imagewise/mask/models/skyseg.py:126-145 | from the aligned source and the weights on: fails (singular) exactly when the coarse covariance of the run has a zero pivot, and reports such a covariance; otherwise the weights are the given ones and the coarse moments, the covariance, the fit and the output all hold |
| Guided.ConstantDownsample | mpsfm/extraction/imagewise/mask/models/skyseg.py:95-106 | under constant positive weights, the weighted downsample of a field that is v everywhere succeeds and is v everywhere: the weighting cancels |
| Guided.FlatRun | mpsfm/extraction/imagewise/mask/models/skyseg.py:119-136 | for a grey reference that is c in every channel, a source that is s everywhere and the confidence computed from it, the coarse stage has a zero covariance before regularisation and a zero cross term, so every coarse pixel can be solved |
| Guided.FlatGuide | mpsfm/extraction/imagewise/mask/models/skyseg.py:109-145 | a flat guide gives back a flat source: with a grey constant reference, a constant source s in [0, 1] at the reference's size, no confidence given, nonzero regularisers and a coarse grid of at least 2 x 2, the upsampler succeeds and returns s at every pixel, clipped or not |
| Guided.FitHolds | mpsfm/extraction/imagewise/mask/models/skyseg.py:138-139 | the coarse affine model solves every pixel's system, and the residual is source - a . reference |
| Guided.Refine | mpsfm/extraction/imagewise/mask/models/skyseg.py:138-145 | from a solvable coarse stage, the fine stage solves every coarse pixel (the fit holds) and its output is the upsampled fit combined with the reference, as `Output` states |

## Left out

- `run_inference`, the `Skyseg` model class and everything around the segmentation network
  (image loading, ONNX, pre- and post-processing): I/O and a foreign model, not arithmetic.
- `superpoint.py` is not part of this model.
- The OpenCV internals. `cv2.sepFilter2D` and `cv2.resize` are the parameters of
  `Pyramid.Backend`. The model states only the laws the proofs use: the averaging law and
  the extensional law.
- Floating point. Everything is exact reals. `np.round` is modelled exactly, as round half
  to even.
- The logarithm in the default step count of `smooth_upsample`. `Pyramid.DefaultSteps`
  models `max(1, round(...))` of a given value `log4ratio`. `Pyramid.SmoothUpsample` takes
  its step count as an input of at least 1.
- Pyramid.SmoothUpsample: requires 2 * size > n on both axes, so that every scheduled step
  targets at least 1 x 1. A target with a 0 in it makes the source fail: on a 0 x 0 target
  the halving loop of `resize_helper` never ends, and on a target with one 0 `cv2.resize`
  raises on the empty size. Those inputs are excluded rather than modelled.
- Pyramid.ResizeHelper: requires targets of at least 1 x 1, for the same reason.
- Pyramid.Resize: requires 1 to 7 channels. The source splits off the channels above the
  third for any count above 4. The model bounds the count so that the second part has at
  most 4 channels, which every call in the upsampler meets: the most it passes is 6, the
  packed covariance.
- `X.squeeze()` in `resize_helper`, and numpy broadcasting against unit dimensions. Fields
  keep their channel axis; a scalar image is a one-channel field. In the source, a field of
  one row or one column that reaches `resize_helper` also loses that axis: a reference 1
  pixel high or wide, or an intermediate step of `smooth_upsample` that targets a single row
  or column. The model keeps the axis there.
- Weighted.WeightedDownsample: requires the resized confidence to be strictly positive. The
  source divides by it unguarded, and a zero there is a floating-point infinity or NaN,
  which is outside the model.
- Guided.GuidedUpsample: requires the averaging law of the backend and, when a confidence is
  given, that it is strictly positive. Together these are the cheapest sufficient condition
  for the previous requirement: a positive confidence stays positive through `resize`. The
  computed confidence is positive by `Confidence.ConfidenceField`.
- Guided.GuidedUpsample: a zero pivot is reported as `Err(Singular)` carrying the regularised
  covariance. The source instead lets NaN or infinity run into the output.
- Guided.GuidedUpsample: a coarse size with a 0 in it is reported as `Err(EmptyCoarseGrid)`.
  In the source, the first weighted downsample then asks `resize` for that size. When both
  are 0, the halving loop of `resize_helper` never ends. When only one is, `cv2.resize`
  (line 42 of `skyseg.py`) raises on the empty size.
- Guided.GuidedUpsample: the flat-guide property (`Guided.FlatGuide`) is proved only for a
  grey guide, one value in all three channels. A coloured flat guide leaves a zero
  covariance and cross term too. But showing that the downsampled reference stays constant
  per channel would need a per-channel law of the resize, which the averaging law (one
  bound for all channels) does not give.
- Guided.GuidedUpsample: a coarse grid of one row or one column is reported as
  `Err(FlatCoarseGrid)`. In the source, the `.squeeze()` at the end of `solve_image_ldl3`
  drops that unit axis. Then `resize` fails on the 1-D affine model of a 1 x 1 grid, and
  `(affine * reference)` on line 142 of `skyseg.py` fails to broadcast the 2-D upsampled model against the reference. The model does
  not reproduce the shapes where that broadcast happens to succeed: a reference 1 pixel
  wide, or 3 pixels wide and 1 or 3 pixels high.
- Weighted.WeightedDownsample: no bound on its output, such as a weighted mean lying between
  the input's extremes. That would need a law about products under the resize, which is
  outside the two backend laws.
- Confidence.Bias: a zero denominator (possible only for x outside [0, 1] or b outside (0, 1))
  is excluded by its precondition rather than modelled as a floating-point infinity.

=== FILE: confidence.dfy ===
/** The confidence transform: probabilities close to the sky/non-sky decision band get a
    weight near the floor, probabilities far from it a weight near 1 (skyseg.py, `bias` and
    `probability_to_confidence`). */
module Confidence {
  import opened Fields
  import opened Reals

  /** The shape parameter `b` used by `probability_to_confidence`. */
  const DefaultBias: real := 0.8
  /** The floor every confidence is raised to, so no weight is exactly zero. */
  const ConfidenceFloor: real := 0.01
  /** The default decision band [LowThresh, HighThresh]. */
  const LowThresh: real := 0.3
  const HighThresh: real := 0.5

  function BiasDenominator(x: real, b: real): real
    requires b != 0.0
  {
    (1.0 / b - 2.0) * (1.0 - x) + 1.0
  }

  /** `bias(x, b) = x / ((1/b - 2) (1 - x) + 1)`; the source leaves a zero denominator to
      floating point, here it is excluded. */
  function Bias(x: real, b: real): (r: real)
    requires b != 0.0 && BiasDenominator(x, b) != 0.0
    ensures r * BiasDenominator(x, b) == x
  {
    var d := BiasDenominator(x, b);
    DivCancel(x, d);
    x / d
  }

  /** With the default b = 0.8 the denominator is 0.25 + 0.75 x, positive for every x >= 0. */
  lemma DefaultDenominator(x: real)
    ensures BiasDenominator(x, DefaultBias) == 0.25 + 0.75 * x
    ensures 0.0 <= x ==> BiasDenominator(x, DefaultBias) >= 0.25
  {
  }

  /** For 0 < b < 1 the denominator is positive on the whole unit interval. */
  lemma DenominatorPositive(x: real, b: real)
    requires 0.0 < b < 1.0 && 0.0 <= x <= 1.0
    ensures BiasDenominator(x, b) > 0.0
  {
    var s := 1.0 / b;
    var t := 1.0 - x;
    DivCancel(1.0, b);
    assert s * b == 1.0;
    assert BiasDenominator(x, b) == (s - 2.0) * t + 1.0;
    assert ((s - 2.0) * t + 1.0) * b == (s * b) * t - 2.0 * b * t + b;
    assert BiasDenominator(x, b) * b == t * (1.0 - 2.0 * b) + b;
    if b > 0.5 {
      MulNonNegative(1.0 - t, 2.0 * b - 1.0);
      assert t * (1.0 - 2.0 * b) >= 1.0 - 2.0 * b;
    } else {
      MulNonNegative(t, 1.0 - 2.0 * b);
    }
  }

  /** bias fixes both ends of the unit interval, for 0 < b < 1. */
  lemma BiasEndpoints(b: real)
    requires 0.0 < b < 1.0
    ensures BiasDenominator(0.0, b) > 0.0 && Bias(0.0, b) == 0.0
    ensures BiasDenominator(1.0, b) == 1.0 && Bias(1.0, b) == 1.0
  {
    DenominatorPositive(0.0, b);
  }

  /** bias is non-decreasing wherever its denominator is positive, for 0 < b <= 1. */
  lemma BiasMonotone(x: real, y: real, b: real)
    requires 0.0 < b <= 1.0 && x <= y
    requires BiasDenominator(x, b) > 0.0 && BiasDenominator(y, b) > 0.0
    ensures Bias(x, b) <= Bias(y, b)
  {
    var s := 1.0 / b;
    var p := BiasDenominator(x, b);
    var q := BiasDenominator(y, b);
    assert s >= 1.0 by {
      DivCancel(1.0, b);
      QuotientLe(b, b, 1.0, b);
      DivCancel(b, b);
    }
    assert p == (s - 1.0) - (s - 2.0) * x;
    assert q == (s - 1.0) - (s - 2.0) * y;
    assert x * q - y * p == (s - 1.0) * (x - y);
    assert (s - 1.0) * (y - x) >= 0.0;
    QuotientLe(x, p, y, q);
  }

  /** bias maps the unit interval into itself for 0 < b < 1. */
  lemma BiasUnitRange(x: real, b: real)
    requires 0.0 < b < 1.0 && 0.0 <= x <= 1.0
    ensures BiasDenominator(x, b) > 0.0
    ensures 0.0 <= Bias(x, b) <= 1.0
  {
    DenominatorPositive(x, b);
    DenominatorPositive(0.0, b);
    DenominatorPositive(1.0, b);
    BiasEndpoints(b);
    BiasMonotone(0.0, x, b);
    BiasMonotone(x, 1.0, b);
  }

  /** The argument handed to `bias` for a probability p: the distance from the band,
      normalised by the width of the side it falls on. The `high` side wins when both
      apply, because the source assigns `confidence[high]` last. */
  function BandDistance(p: real, low: real, high: real): (r: real)
    requires 0.0 < low && high < 1.0
    ensures p > high ==> r * (1.0 - high) == p - high
    ensures p <= high && p < low ==> r * low == low - p
    ensures low <= p <= high ==> r == 0.0
  {
    if p > high then DivCancel(p - high, 1.0 - high); (p - high) / (1.0 - high)
    else if p < low then DivCancel(low - p, low); (low - p) / low
    else 0.0
  }

  /** `probability_to_confidence` for one value, with band [low, high]. */
  function ProbabilityToConfidence(p: real, low: real, high: real): (r: real)
    requires 0.0 < low && high < 1.0
    ensures r >= ConfidenceFloor
    ensures low <= p <= high ==> r == ConfidenceFloor
  {
    var raw :=
      if p > high || p < low then
        var x := BandDistance(p, low, high);
        DefaultDenominator(x);
        Bias(x, DefaultBias)
      else 0.0;
    if raw < ConfidenceFloor then ConfidenceFloor else raw
  }

  /** Outside the band the distance is positive. */
  lemma BandDistancePositive(p: real, low: real, high: real)
    requires 0.0 < low && high < 1.0
    requires p > high || p < low
    ensures BandDistance(p, low, high) > 0.0
  {
    if p > high {
      DivPositive(p - high, 1.0 - high);
    } else {
      DivPositive(low - p, low);
    }
  }

  /** For a probability in [0, 1] the distance is at most 1. */
  lemma BandDistanceUnit(p: real, low: real, high: real)
    requires 0.0 < low && high < 1.0 && 0.0 <= p <= 1.0
    ensures 0.0 <= BandDistance(p, low, high) <= 1.0
  {
    if p > high {
      DivNonNegative(p - high, 1.0 - high);
      DivAtMostOne(p - high, 1.0 - high);
    } else if p < low {
      DivNonNegative(low - p, low);
      DivAtMostOne(low - p, low);
    }
  }

  /** A probability in [0, 1] gets a confidence in [floor, 1]. */
  lemma ConfidenceAtMostOne(p: real, low: real, high: real)
    requires 0.0 < low && high < 1.0 && 0.0 <= p <= 1.0
    ensures ConfidenceFloor <= ProbabilityToConfidence(p, low, high) <= 1.0
  {
    BandDistanceUnit(p, low, high);
    BiasUnitRange(BandDistance(p, low, high), DefaultBias);
  }

  /** Above the band, confidence does not decrease as p moves away from it. */
  lemma ConfidenceMonotoneAbove(p: real, q: real, low: real, high: real)
    requires 0.0 < low && high < 1.0
    requires high < p <= q
    ensures ProbabilityToConfidence(p, low, high) <= ProbabilityToConfidence(q, low, high)
  {
    var x := BandDistance(p, low, high);
    var y := BandDistance(q, low, high);
    assert x <= y by {
      assert p - high <= q - high;
      QuotientLe(p - high, 1.0 - high, q - high, 1.0 - high);
    }
    BandDistancePositive(p, low, high);
    DefaultDenominator(x);
    DefaultDenominator(y);
    BiasMonotone(x, y, DefaultBias);
  }

  /** Below the band, confidence does not decrease as p moves away from it. */
  lemma ConfidenceMonotoneBelow(p: real, q: real, low: real, high: real)
    requires 0.0 < low && high < 1.0
    requires p <= q < low && q <= high
    ensures ProbabilityToConfidence(q, low, high) <= ProbabilityToConfidence(p, low, high)
  {
    var x := BandDistance(q, low, high);
    var y := BandDistance(p, low, high);
    assert x <= y by {
      QuotientLe(low - q, low, low - p, low);
    }
    BandDistancePositive(q, low, high);
    DefaultDenominator(x);
    DefaultDenominator(y);
    BiasMonotone(x, y, DefaultBias);
  }

  /** `probability_to_confidence` applied to every value of a probability field, with the
      default band [0.3, 0.5]. */
  function ConfidenceField(P: Field): (r: Field)
    ensures r.h == P.h && r.w == P.w && r.c == P.c
    ensures InRange(r, ConfidenceFloor, 1.0) <== InRange(P, 0.0, 1.0)
    ensures Positive(r)
    ensures forall i: nat, j: nat, k: nat | i < P.h && j < P.w && k < P.c ::
              LowThresh <= P.at(i, j, k) <= HighThresh ==> r.at(i, j, k) == ConfidenceFloor
  {
    var r := Field(P.h, P.w, P.c,
                   (i: nat, j: nat, k: nat) => ProbabilityToConfidence(P.at(i, j, k), LowThresh, HighThresh));
    assert InRange(P, 0.0, 1.0) ==> InRange(r, ConfidenceFloor, 1.0) by {
      if InRange(P, 0.0, 1.0) {
        forall i: nat, j: nat, k: nat | i < P.h && j < P.w && k < P.c
          ensures ConfidenceFloor <= r.at(i, j, k) <= 1.0
        {
          ConfidenceAtMostOne(P.at(i, j, k), LowThresh, HighThresh);
        }
      }
    }
    r
  }
}

=== FILE: fields.dfy ===
/** Image-like arrays of reals: an H x W grid of pixels with C channels each.
    A scalar field (a 2-D array in the source) is a field with one channel. */
module Fields {

  /** A field of `h` rows, `w` columns and `c` channels; `at(i, j, k)` is the value at
      row i, column j, channel k. Only indices inside the extent carry meaning. */
  datatype Field = Field(h: nat, w: nat, c: nat, at: (nat, nat, nat) -> real)

  predicate SameShape(X: Field, Y: Field) {
    X.h == Y.h && X.w == Y.w && X.c == Y.c
  }

  /** Two fields hold the same array: same shape, same values inside the extent. */
  ghost predicate Equiv(X: Field, Y: Field) {
    && SameShape(X, Y)
    && forall i: nat, j: nat, k: nat | i < X.h && j < X.w && k < X.c :: X.at(i, j, k) == Y.at(i, j, k)
  }

  lemma EquivTransitive(X: Field, Y: Field, Z: Field)
    requires Equiv(X, Y) && Equiv(Y, Z)
    ensures Equiv(X, Z)
  {
  }

  /** Every value inside the extent lies in [lo, hi]. */
  ghost predicate InRange(X: Field, lo: real, hi: real) {
    forall i: nat, j: nat, k: nat | i < X.h && j < X.w && k < X.c :: lo <= X.at(i, j, k) <= hi
  }

  /** Every value inside the extent is strictly positive. */
  ghost predicate Positive(X: Field) {
    forall i: nat, j: nat, k: nat | i < X.h && j < X.w && k < X.c :: 0.0 < X.at(i, j, k)
  }

  /** The channels [lo, hi) of X, in order: `X[..., lo:hi]`. */
  function Slice(X: Field, lo: nat, hi: nat): (r: Field)
    requires lo <= hi <= X.c
    ensures r.h == X.h && r.w == X.w && r.c == hi - lo
  {
    Field(X.h, X.w, hi - lo, (i: nat, j: nat, k: nat) => X.at(i, j, k + lo))
  }

  /** The channels of A followed by those of B: `np.concatenate([A, B], axis=2)`. */
  function Concat(A: Field, B: Field): (r: Field)
    requires A.h == B.h && A.w == B.w
    ensures r.h == A.h && r.w == A.w && r.c == A.c + B.c
  {
    Field(A.h, A.w, A.c + B.c,
          (i: nat, j: nat, k: nat) => if k < A.c then A.at(i, j, k) else B.at(i, j, k - A.c))
  }

  /** Concatenation keeps both parts, in order: slicing recovers each one. */
  lemma ConcatSlices(A: Field, B: Field)
    requires A.h == B.h && A.w == B.w
    ensures Equiv(Slice(Concat(A, B), 0, A.c), A)
    ensures Equiv(Slice(Concat(A, B), A.c, A.c + B.c), B)
  {
  }

  /** Concatenation keeps bounds and signs common to both parts, and depends only on their
      contents. */
  lemma ConcatPreserves(A: Field, B: Field, A': Field, B': Field, lo: real, hi: real)
    requires A.h == B.h && A.w == B.w && A'.h == B'.h && A'.w == B'.w
    ensures InRange(A, lo, hi) && InRange(B, lo, hi) ==> InRange(Concat(A, B), lo, hi)
    ensures Positive(A) && Positive(B) ==> Positive(Concat(A, B))
    ensures Equiv(A, A') && Equiv(B, B') ==> Equiv(Concat(A, B), Concat(A', B'))
  {
    var R := Concat(A, B);
    if InRange(A, lo, hi) && InRange(B, lo, hi) {
      forall i: nat, j: nat, k: nat | i < R.h && j < R.w && k < R.c
        ensures lo <= R.at(i, j, k) <= hi
      {
        if k >= A.c {
          assert R.at(i, j, k) == B.at(i, j, k - A.c);
        }
      }
    }
    if Positive(A) && Positive(B) {
      forall i: nat, j: nat, k: nat | i < R.h && j < R.w && k < R.c
        ensures 0.0 < R.at(i, j, k)
      {
        if k >= A.c {
          assert R.at(i, j, k) == B.at(i, j, k - A.c);
        }
      }
    }
    if Equiv(A, A') && Equiv(B, B') {
      var R' := Concat(A', B');
      forall i: nat, j: nat, k: nat | i < R.h && j < R.w && k < R.c
        ensures R.at(i, j, k) == R'.at(i, j, k)
      {
        if k >= A.c {
          assert R.at(i, j, k) == B.at(i, j, k - A.c);
          assert R'.at(i, j, k) == B'.at(i, j, k - A.c);
        }
      }
    }
  }

  /** Slicing keeps bounds and signs, and depends only on the contents. */
  lemma SlicePreserves(X: Field, Y: Field, lo: nat, hi: nat, a: real, b: real)
    requires lo <= hi <= X.c
    ensures InRange(X, a, b) ==> InRange(Slice(X, lo, hi), a, b)
    ensures Positive(X) ==> Positive(Slice(X, lo, hi))
    ensures Equiv(X, Y) ==> Equiv(Slice(X, lo, hi), Slice(Y, lo, hi))
  {
  }

  /** `X * S[..., None]`: every channel of X multiplied by the one-channel field S. */
  function MulScalar(X: Field, S: Field): (r: Field)
    requires X.h == S.h && X.w == S.w
    ensures r.h == X.h && r.w == X.w && r.c == X.c
  {
    Field(X.h, X.w, X.c, (i: nat, j: nat, k: nat) => X.at(i, j, k) * S.at(i, j, 0))
  }

  /** Channel-wise difference `X - Y` of two fields of one shape. */
  function Sub(X: Field, Y: Field): (r: Field)
    requires SameShape(X, Y)
    ensures SameShape(r, X)
  {
    Field(X.h, X.w, X.c, (i: nat, j: nat, k: nat) => X.at(i, j, k) - Y.at(i, j, k))
  }

  /** Per-pixel sum over the three channels of A * B: `(A * B).sum(axis=2)`. */
  function Dot3(A: Field, B: Field): (r: Field)
    requires A.h == B.h && A.w == B.w && A.c == 3 && B.c == 3
    ensures r.h == A.h && r.w == A.w && r.c == 1
  {
    Field(A.h, A.w, 1, (i: nat, j: nat, k: nat) =>
      A.at(i, j, 0) * B.at(i, j, 0) + A.at(i, j, 1) * B.at(i, j, 1) + A.at(i, j, 2) * B.at(i, j, 2))
  }

  /** Channel-wise sum `X + Y` of two fields of one shape. */
  function Add(X: Field, Y: Field): (r: Field)
    requires SameShape(X, Y)
    ensures SameShape(r, X)
  {
    Field(X.h, X.w, X.c, (i: nat, j: nat, k: nat) => X.at(i, j, k) + Y.at(i, j, k))
  }

  /** Multiplying by a field that is 1 everywhere changes nothing. */
  lemma MulScalarByOne(X: Field, S: Field)
    requires X.h == S.h && X.w == S.w && S.c == 1
    requires InRange(S, 1.0, 1.0)
    ensures Equiv(MulScalar(X, S), X)
  {
    forall i: nat, j: nat, k: nat | i < X.h && j < X.w && k < X.c
      ensures MulScalar(X, S).at(i, j, k) == X.at(i, j, k)
    {
      assert S.at(i, j, 0) == 1.0;
    }
  }
}

=== FILE: guided.dfy ===
/** The per-pixel pieces of the guided upsampler on whole fields (skyseg.py,
    `outer_product_images`, `solve_image_ldl3`, the regularisation and the clip), and the
    upsampler itself, `guided_upsample`, as their composition. */
module Guided {
  import opened Fields
  import opened Reals
  import opened Rounding
  import opened Confidence
  import opened Sym3
  import opened Pyramid
  import opened Results
  import opened Weighted

  /** The first three channels of pixel (i, j) as a vector. */
  function PixelVec(F: Field, i: nat, j: nat): Vec3 {
    Vec3(F.at(i, j, 0), F.at(i, j, 1), F.at(i, j, 2))
  }

  /** The first six channels of pixel (i, j) read as a packed symmetric matrix. */
  function PixelSym(F: Field, i: nat, j: nat): Sym3 {
    Sym3(F.at(i, j, 0), F.at(i, j, 1), F.at(i, j, 2), F.at(i, j, 3), F.at(i, j, 4), F.at(i, j, 5))
  }

  /** `outer_product_images`: per pixel, the packed upper triangle of x y^T. Both inputs must
      have three channels (the source asserts it first) and one height and width (numpy
      broadcasting otherwise fails). */
  function OuterProductImages(X: Field, Y: Field): (r: Result<Field>)
    ensures X.c != 3 || Y.c != 3 ==> r == Err(NotThreeChannels)
    ensures X.c == 3 && Y.c == 3 ==> (r.Ok? <==> X.h == Y.h && X.w == Y.w)
    ensures r.Err? ==> r.error == NotThreeChannels || r.error == ShapeMismatch
    ensures r.Ok? ==> r.value.h == X.h && r.value.w == X.w && r.value.c == 6
    ensures r.Ok? ==> forall i: nat, j: nat | i < X.h && j < X.w ::
                        PixelSym(r.value, i, j) == Outer(PixelVec(X, i, j), PixelVec(Y, i, j))
  {
    if X.c != 3 || Y.c != 3 then Err(NotThreeChannels)
    else if X.h != Y.h || X.w != Y.w then Err(ShapeMismatch)
    else Ok(Field(X.h, X.w, 6, (i: nat, j: nat, k: nat) =>
                    if k < 6 then Packed(Outer(PixelVec(X, i, j), PixelVec(Y, i, j)), k) else 0.0))
  }

  /** Channel k of the result is x[r] y[c] for the k-th upper-triangular position (r, c). */
  lemma OuterImagesChannels(X: Field, Y: Field, i: nat, j: nat, k: nat)
    requires X.c == 3 && Y.c == 3 && X.h == Y.h && X.w == Y.w && k < 6
    ensures TriuRow(k) <= TriuCol(k) < 3
    ensures OuterProductImages(X, Y).value.at(i, j, k) == X.at(i, j, TriuRow(k)) * Y.at(i, j, TriuCol(k))
  {
    TriuEnumeration();
    var x, y := PixelVec(X, i, j), PixelVec(Y, i, j);
    assert OuterProductImages(X, Y).value.at(i, j, k) == Packed(Outer(x, y), k);
    assert Comp(x, TriuRow(k)) == X.at(i, j, TriuRow(k));
    assert Comp(y, TriuCol(k)) == Y.at(i, j, TriuCol(k));
  }

  /** A one-pixel image with colour [1, 2, 3] gives [1, 2, 3, 4, 6, 9]. */
  lemma OuterImagesExample()
    ensures var X := Field(1, 1, 3, (i: nat, j: nat, k: nat) => (k + 1) as real);
            var r := OuterProductImages(X, X);
            && r.Ok?
            && r.value.at(0, 0, 0) == 1.0 && r.value.at(0, 0, 1) == 2.0 && r.value.at(0, 0, 2) == 3.0
            && r.value.at(0, 0, 3) == 4.0 && r.value.at(0, 0, 4) == 6.0 && r.value.at(0, 0, 5) == 9.0
  {
    var X := Field(1, 1, 3, (i: nat, j: nat, k: nat) => (k + 1) as real);
    assert PixelVec(X, 0, 0) == Vec3(1.0, 2.0, 3.0);
    OuterExample();
  }

  /** The regularisation step of `guided_upsample`: `eps_luma**2` added to channel 0 and
      `eps_chroma**2` to channels 3 and 5 of every pixel. Per pixel it is the matrix
      regularisation, and the off-diagonal channels 1, 2 and 4 are left unchanged. */
  function RegularizeField(C: Field, epsLuma: real, epsChroma: real): (r: Field)
    requires C.c == 6
    ensures SameShape(r, C)
    ensures forall i: nat, j: nat | i < C.h && j < C.w ::
              PixelSym(r, i, j) == Regularize(PixelSym(C, i, j), epsLuma, epsChroma)
    ensures forall i: nat, j: nat, k: nat | i < C.h && j < C.w && k < 6 && TriuRow(k) != TriuCol(k) ::
              r.at(i, j, k) == C.at(i, j, k)
  {
    Field(C.h, C.w, 6, (i: nat, j: nat, k: nat) =>
      C.at(i, j, k) + (if k == 0 then Square(epsLuma) else if k == 3 || k == 5 then Square(epsChroma) else 0.0))
  }

  /** Every pixel of a packed covariance field has nonzero pivots. */
  ghost predicate AllSolvable(C: Field) {
    forall i: nat, j: nat | i < C.h && j < C.w :: Solvable(PixelSym(C, i, j))
  }

  /** Scans the pixels row by row and reports whether every one of them can be solved. */
  method CheckSolvable(C: Field) returns (ok: bool)
    ensures ok <==> AllSolvable(C)
  {
    var i := 0;
    while i < C.h
      invariant i <= C.h
      invariant forall i': nat, j': nat | i' < i && j' < C.w :: Solvable(PixelSym(C, i', j'))
    {
      var j := 0;
      while j < C.w
        invariant j <= C.w
        invariant forall i': nat, j': nat | i' < i && j' < C.w :: Solvable(PixelSym(C, i', j'))
        invariant forall j': nat | j' < j :: Solvable(PixelSym(C, i, j'))
      {
        if !Solvable(PixelSym(C, i, j)) {
          return false;
        }
        j := j + 1;
      }
      i := i + 1;
    }
    return true;
  }

  /** `solve_image_ldl3`: solves A x = b at every pixel, A packed in the six channels of C and
      b in the three channels of B. */
  function SolveImage(C: Field, B: Field): (r: Field)
    requires C.c == 6 && B.c == 3 && C.h == B.h && C.w == B.w && AllSolvable(C)
    ensures r.h == C.h && r.w == C.w && r.c == 3
    ensures forall i: nat, j: nat | i < C.h && j < C.w ::
              MatVec(PixelSym(C, i, j), PixelVec(r, i, j)) == PixelVec(B, i, j)
  {
    var r := Field(C.h, C.w, 3, (i: nat, j: nat, k: nat) =>
               if k < 3 && Solvable(PixelSym(C, i, j)) then Comp(Solve(PixelSym(C, i, j), PixelVec(B, i, j)), k) else 0.0);
    assert forall i: nat, j: nat | i < C.h && j < C.w ::
             PixelVec(r, i, j) == Solve(PixelSym(C, i, j), PixelVec(B, i, j));
    r
  }

  /** The solution field is the only one of three channels that solves every pixel. */
  lemma SolveImageUnique(C: Field, B: Field, Z: Field)
    requires C.c == 6 && B.c == 3 && C.h == B.h && C.w == B.w && AllSolvable(C)
    requires Z.h == C.h && Z.w == C.w && Z.c == 3
    requires forall i: nat, j: nat | i < C.h && j < C.w :: MatVec(PixelSym(C, i, j), PixelVec(Z, i, j)) == PixelVec(B, i, j)
    ensures Equiv(Z, SolveImage(C, B))
  {
    var r := SolveImage(C, B);
    forall i: nat, j: nat, k: nat | i < Z.h && j < Z.w && k < Z.c
      ensures Z.at(i, j, k) == r.at(i, j, k)
    {
      SolveUnique(PixelSym(C, i, j), PixelVec(B, i, j), PixelVec(Z, i, j));
      SolveUnique(PixelSym(C, i, j), PixelVec(B, i, j), PixelVec(r, i, j));
      assert PixelVec(Z, i, j) == PixelVec(r, i, j);
    }
  }

  /** `clip(0, 1)` of one value. */
  function Clip(x: real): (r: real)
    ensures 0.0 <= r <= 1.0
    ensures 0.0 <= x <= 1.0 ==> r == x
    ensures x < 0.0 ==> r == 0.0
    ensures x > 1.0 ==> r == 1.0
  {
    if x < 0.0 then 0.0 else if x > 1.0 then 1.0 else x
  }

  /** Clipping is monotone and idempotent. */
  lemma ClipMonotoneIdempotent(x: real, y: real)
    ensures x <= y ==> Clip(x) <= Clip(y)
    ensures Clip(Clip(x)) == Clip(x)
  {
  }

  /** `output.clip(0, 1)` of a whole field, value by value. The result lies in [0, 1], and a
      field already there is left as it is. */
  function ClipField(F: Field): (r: Field)
    ensures SameShape(r, F)
    ensures forall i: nat, j: nat, k: nat | i < F.h && j < F.w && k < F.c :: r.at(i, j, k) == Clip(F.at(i, j, k))
    ensures InRange(r, 0.0, 1.0)
    ensures InRange(F, 0.0, 1.0) ==> Equiv(r, F)
  {
    var r := Field(F.h, F.w, F.c, (i: nat, j: nat, k: nat) => Clip(F.at(i, j, k)));
    assert InRange(r, 0.0, 1.0) && (InRange(F, 0.0, 1.0) ==> Equiv(r, F)) by {
      forall i: nat, j: nat, k: nat | i < F.h && j < F.w && k < F.c
        ensures 0.0 <= r.at(i, j, k) <= 1.0
        ensures 0.0 <= F.at(i, j, k) <= 1.0 ==> r.at(i, j, k) == F.at(i, j, k)
      {
        var x := F.at(i, j, k);
        assert r.at(i, j, k) == Clip(x);
      }
    }
    r
  }

  /** What the upsampler computes at the coarse size: the weights used, the
      weighted-downsampled reference and source, the weighted means of the reference's outer
      product with itself and of the reference times the source, the covariance before and
      after regularisation, and the cross term. */
  datatype CoarseStage = CoarseStage(
    weights: Field,
    referenceSmall: Field, sourceSmall: Field, outerMoment: Field, crossMoment: Field,
    rawCovariance: Field, covariance: Field, cross: Field)

  /** What the upsampler computes from the coarse stage on: the per-pixel affine model and
      its residual at the coarse size, both upsampled, and the output. */
  datatype FineStage = FineStage(coarseAffine: Field, coarseResidual: Field, affine: Field, residual: Field, output: Field)

  /** Everything the upsampler computes on the way to its output. */
  datatype Refinement = Refinement(coarse: CoarseStage, fine: FineStage)

  /** The source after the alignment step: resized to the reference's height and width when
      it is smaller in either of them, unchanged otherwise. */
  function AlignSource(be: Backend, source: Field, reference: Field): (r: Field)
    requires source.c == 1 && NonEmpty(source) && NonEmpty(reference)
    ensures r.c == 1 && NonEmpty(r)
    ensures source.h < reference.h || source.w < reference.w ==> r.h == reference.h && r.w == reference.w
    ensures source.h >= reference.h && source.w >= reference.w ==> r == source
  {
    if source.h < reference.h || source.w < reference.w then ResizeSpec(be, source, reference.h, reference.w)
    else source
  }

  /** The coarse size: the reference's shape divided by the kernel size, rounded half to
      even as `np.round` does. */
  function SmallShape(reference: Field, kernelSize: real): (r: (nat, nat))
    requires kernelSize > 0.0
    ensures reference.h as real / kernelSize - 0.5 <= r.0 as real <= reference.h as real / kernelSize + 0.5
    ensures reference.w as real / kernelSize - 0.5 <= r.1 as real <= reference.w as real / kernelSize + 0.5
    ensures r.0 as real == reference.h as real / kernelSize - 0.5 || r.0 as real == reference.h as real / kernelSize + 0.5
            ==> IsEven(r.0)
    ensures r.1 as real == reference.w as real / kernelSize - 0.5 || r.1 as real == reference.w as real / kernelSize + 0.5
            ==> IsEven(r.1)
  {
    TargetOf(reference, ByScale(kernelSize))
  }

  /** The ties the default kernel of 256 meets: 128 rows give an empty coarse grid and 384
      columns give two. */
  lemma SmallShapeTies(reference: Field)
    requires reference.h == 128 && reference.w == 384
    ensures SmallShape(reference, 256.0) == (0, 2)
  {
    var r := SmallShape(reference, 256.0);
    assert r.0 as real == 0.0 || r.0 as real == 1.0;
    assert r.1 as real == 1.0 || r.1 as real == 2.0;
  }

  /** The arguments `guided_upsample` works on at all: a non-empty reference, a non-empty
      scalar source and a positive kernel size. */
  predicate Arguments(reference: Field, source: Field, kernelSize: real) {
    NonEmpty(reference) && source.c == 1 && NonEmpty(source) && kernelSize > 0.0
  }

  /** What the coarse stage of `guided_upsample` needs of its arguments: a kernel size that
      leaves a coarse size of at least 1 x 1. */
  predicate CoarseInput(reference: Field, source: Field, kernelSize: real) {
    && Arguments(reference, source, kernelSize)
    && SmallShape(reference, kernelSize).0 >= 1 && SmallShape(reference, kernelSize).1 >= 1
  }

  /** What `guided_upsample` needs of its arguments: a step count for whose schedule every
      step targets at least one row and one column. */
  predicate GuidedInput(reference: Field, source: Field, kernelSize: real, steps: nat) {
    Arguments(reference, source, kernelSize) && steps >= 1 && 2 * reference.h > steps && 2 * reference.w > steps
  }

  /** The coarse fields have the coarse size of the reference's weighted downsample and the
      channel counts the source gives them. */
  ghost predicate CoarseShapes(g: CoarseStage) {
    var h, w := g.referenceSmall.h, g.referenceSmall.w;
    && h >= 1 && w >= 1
    && g.referenceSmall.c == 3 && g.sourceSmall.c == 1 && g.outerMoment.c == 6 && g.crossMoment.c == 3
    && g.rawCovariance.c == 6 && g.covariance.c == 6 && g.cross.c == 3
    && g.sourceSmall.h == h && g.sourceSmall.w == w && g.outerMoment.h == h && g.outerMoment.w == w
    && g.crossMoment.h == h && g.crossMoment.w == w
    && g.rawCovariance.h == h && g.rawCovariance.w == w && g.covariance.h == h && g.covariance.w == w
    && g.cross.h == h && g.cross.w == w
  }

  /** The covariance and cross term of a run: the covariance is the weighted second moment
      minus the outer product of the weighted mean, then regularised; the cross term is the
      weighted mean of reference times source minus the product of the two means. */
  ghost predicate Covariance(g: CoarseStage, epsLuma: real, epsChroma: real) {
    var h, w := g.referenceSmall.h, g.referenceSmall.w;
    && CoarseShapes(g)
    && (forall i: nat, j: nat, k: nat | i < h && j < w && k < 6 ::
          g.rawCovariance.at(i, j, k)
          == g.outerMoment.at(i, j, k) - Packed(Outer(PixelVec(g.referenceSmall, i, j), PixelVec(g.referenceSmall, i, j)), k))
    && (forall i: nat, j: nat | i < h && j < w ::
          PixelSym(g.covariance, i, j) == Regularize(PixelSym(g.rawCovariance, i, j), epsLuma, epsChroma))
    && (forall i: nat, j: nat, k: nat | i < h && j < w && k < 3 ::
          g.cross.at(i, j, k) == g.crossMoment.at(i, j, k) - g.referenceSmall.at(i, j, k) * g.sourceSmall.at(i, j, 0))
  }

  /** The coarse linear fit of a run: at every coarse pixel the affine model a solves
      covariance a = cross, and the residual is source - a . reference there. */
  ghost predicate Fit(g: CoarseStage, f: FineStage) {
    var h, w := g.referenceSmall.h, g.referenceSmall.w;
    && CoarseShapes(g)
    && f.coarseAffine.h == h && f.coarseAffine.w == w && f.coarseAffine.c == 3
    && f.coarseResidual.h == h && f.coarseResidual.w == w && f.coarseResidual.c == 1
    && (forall i: nat, j: nat | i < h && j < w ::
          MatVec(PixelSym(g.covariance, i, j), PixelVec(f.coarseAffine, i, j)) == PixelVec(g.cross, i, j))
    && (forall i: nat, j: nat | i < h && j < w ::
          f.coarseResidual.at(i, j, 0)
          == g.sourceSmall.at(i, j, 0) - (f.coarseAffine.at(i, j, 0) * g.referenceSmall.at(i, j, 0)
                                          + f.coarseAffine.at(i, j, 1) * g.referenceSmall.at(i, j, 1)
                                          + f.coarseAffine.at(i, j, 2) * g.referenceSmall.at(i, j, 2)))
  }

  /** The full-resolution output of a run: the coarse affine model and residual are each
      smooth-upsampled to the reference's size, and every output pixel is a . reference +
      residual, clipped to [0, 1] when asked. */
  ghost predicate Output(be: Backend, reference: Field, f: FineStage, clipOutput: bool, steps: nat) {
    && f.affine.h == reference.h && f.affine.w == reference.w && f.affine.c == 3
    && f.residual.h == reference.h && f.residual.w == reference.w && f.residual.c == 1
    && UpsampleInput(f.coarseAffine, reference.h, reference.w, steps)
    && UpsampleInput(f.coarseResidual, reference.h, reference.w, steps)
    && f.affine == SmoothSpec(be, f.coarseAffine, reference.h, reference.w, steps)
    && f.residual == SmoothSpec(be, f.coarseResidual, reference.h, reference.w, steps)
    && Combines(reference, f.affine, f.residual, f.output, clipOutput)
  }

  /** The output out of an upsampled affine model A and residual R: every pixel is
      a . reference + residual there, clipped to [0, 1] when asked. */
  ghost predicate Combines(reference: Field, A: Field, R: Field, out: Field, clipOutput: bool) {
    && out.h == reference.h && out.w == reference.w && out.c == 1
    && (forall i: nat, j: nat | i < reference.h && j < reference.w ::
          var v := A.at(i, j, 0) * reference.at(i, j, 0) + A.at(i, j, 1) * reference.at(i, j, 1)
                   + A.at(i, j, 2) * reference.at(i, j, 2) + R.at(i, j, 0);
          out.at(i, j, 0) == if clipOutput then Clip(v) else v)
    && (clipOutput ==> InRange(out, 0.0, 1.0))
  }

  /** The coarse fields of a run on an aligned source S: with positive weights of S's shape,
      each is the weighted downsample, to the coarse size, of the reference, of S, of the
      reference's outer product with itself and of the reference times S. */
  ghost predicate Moments(be: Backend, reference: Field, S: Field, kernelSize: real, g: CoarseStage)
    requires reference.c == 3 && CoarseInput(reference, S, kernelSize) && S.h == reference.h && S.w == reference.w
  {
    var (th, tw) := SmallShape(reference, kernelSize);
    && SameShape(g.weights, S) && Positive(g.weights) && Positive(ResizeSpec(be, g.weights, th, tw))
    && WeightedDownsample(be, reference, g.weights, ByScale(kernelSize)) == Ok(g.referenceSmall)
    && WeightedDownsample(be, S, g.weights, BySize(th, tw)) == Ok(g.sourceSmall)
    && WeightedDownsample(be, OuterProductImages(reference, reference).value, g.weights, BySize(th, tw)) == Ok(g.outerMoment)
    && WeightedDownsample(be, MulScalar(reference, S), g.weights, BySize(th, tw)) == Ok(g.crossMoment)
  }

  /** How the coarse fields of a run come from the inputs: the source is aligned to the
      reference's height and width, the weights are the given confidence or the confidence of
      the aligned source, and the coarse fields are its `Moments`. */
  ghost predicate Downsampled(be: Backend, reference: Field, source: Field, kernelSize: real,
                              confidence: Option<Field>, g: CoarseStage)
    requires reference.c == 3 && CoarseInput(reference, source, kernelSize)
  {
    var S := AlignSource(be, source, reference);
    && g.weights == (if confidence.Some? then confidence.value else ConfidenceField(S))
    && S.h == reference.h && S.w == reference.w
    && Moments(be, reference, S, kernelSize, g)
  }

  /** `guided_upsample`. Fails, in this order, when the reference does not have three
      channels, when a given confidence does not have the aligned source's shape, when the
      aligned source does not have the reference's height and width, when the coarse grid
      is empty, when it has a single row or column, and when some coarse pixel of the regularised covariance
      has a zero pivot. Otherwise it returns every intermediate field along with the output,
      related as `Downsampled`, `Covariance`, `Fit` and `Output` state. */
  method GuidedUpsample(be: Backend, reference: Field, source: Field, kernelSize: real,
                        confidence: Option<Field>, epsLuma: real, epsChroma: real,
                        clipOutput: bool, steps: nat) returns (r: Result<Refinement>)
    requires Averages(be) && GuidedInput(reference, source, kernelSize, steps)
    requires confidence.Some? ==> Positive(confidence.value)
    ensures r == Err(NotThreeChannels) <==> reference.c != 3
    ensures reference.c == 3 ==>
              (r == Err(ConfidenceShape) <==>
                 confidence.Some? && !SameShape(confidence.value, AlignSource(be, source, reference)))
    ensures reference.c == 3 && (confidence.Some? ==> SameShape(confidence.value, AlignSource(be, source, reference))) ==>
              (r == Err(ShapeMismatch) <==>
                 AlignSource(be, source, reference).h != reference.h || AlignSource(be, source, reference).w != reference.w)
    ensures ReachesGrid(be, reference, source, kernelSize, confidence) ==>
              (r == Err(EmptyCoarseGrid) <==>
                 SmallShape(reference, kernelSize).0 == 0 || SmallShape(reference, kernelSize).1 == 0)
    ensures ReachesGrid(be, reference, source, kernelSize, confidence)
            && SmallShape(reference, kernelSize).0 >= 1 && SmallShape(reference, kernelSize).1 >= 1 ==>
              (r == Err(FlatCoarseGrid) <==>
                 SmallShape(reference, kernelSize).0 == 1 || SmallShape(reference, kernelSize).1 == 1)
    ensures r.Err? && r.error.Singular? ==>
              && reference.c == 3
              && CoarseInput(reference, source, kernelSize)
              && !AllSolvable(r.error.covariance)
              && exists g: CoarseStage :: Downsampled(be, reference, source, kernelSize, confidence, g)
                                         && Covariance(g, epsLuma, epsChroma) && g.covariance == r.error.covariance
    ensures ReachesGrid(be, reference, source, kernelSize, confidence)
            && SmallShape(reference, kernelSize).0 >= 2 && SmallShape(reference, kernelSize).1 >= 2 ==>
              forall g: CoarseStage | Downsampled(be, reference, source, kernelSize, confidence, g)
                                     && Covariance(g, epsLuma, epsChroma) ::
                (r.Ok? <==> AllSolvable(g.covariance))
    ensures r.Ok? ==>
              && reference.c == 3
              && CoarseInput(reference, source, kernelSize)
              && Downsampled(be, reference, source, kernelSize, confidence, r.value.coarse)
              && Covariance(r.value.coarse, epsLuma, epsChroma)
              && AllSolvable(r.value.coarse.covariance)
              && Fit(r.value.coarse, r.value.fine)
              && Output(be, reference, r.value.fine, clipOutput, steps)
  {
    if reference.c != 3 {
      return Err(NotThreeChannels);
    }
    var S := source;
    if source.h < reference.h || source.w < reference.w {
      S := Resize(be, source, reference.h, reference.w);
    }
    assert S == AlignSource(be, source, reference);
    var W: Field;
    if confidence.Some? {
      if !SameShape(confidence.value, S) {
        return Err(ConfidenceShape);
      }
      W := confidence.value;
    } else {
      W := ConfidenceField(S);
    }
    assert W == if confidence.Some? then confidence.value else ConfidenceField(S);
    if S.h != reference.h || S.w != reference.w {
      return Err(ShapeMismatch);
    }
    var (th, tw) := SmallShape(reference, kernelSize);
    if th == 0 || tw == 0 {
      return Err(EmptyCoarseGrid);
    }
    if th == 1 || tw == 1 {
      return Err(FlatCoarseGrid);
    }
    ResizeBounds(be, W, th, tw, 0.0, 0.0);
    r := Fitted(be, reference, S, W, kernelSize, epsLuma, epsChroma, clipOutput, steps);
    if r.Err? {
      ghost var g: CoarseStage :| g.weights == W && Moments(be, reference, S, kernelSize, g) && Covariance(g, epsLuma, epsChroma)
                     && g.covariance == r.error.covariance;
      DownsampledIff(be, reference, source, kernelSize, confidence, S, W, g);
    }
    forall g: CoarseStage | Downsampled(be, reference, source, kernelSize, confidence, g) && Covariance(g, epsLuma, epsChroma)
      ensures r.Ok? <==> AllSolvable(g.covariance)
    {
      DownsampledIff(be, reference, source, kernelSize, confidence, S, W, g);
    }
  }

  /** Once the source is aligned to S and the weights W are chosen, `Downsampled` says that
      the coarse fields are the `Moments` of S under W. */
  lemma DownsampledIff(be: Backend, reference: Field, source: Field, kernelSize: real, confidence: Option<Field>,
                       S: Field, W: Field, g: CoarseStage)
    requires reference.c == 3 && CoarseInput(reference, source, kernelSize)
    requires S == AlignSource(be, source, reference) && S.h == reference.h && S.w == reference.w
    requires W == if confidence.Some? then confidence.value else ConfidenceField(S)
    ensures Downsampled(be, reference, source, kernelSize, confidence, g)
            <==> g.weights == W && Moments(be, reference, S, kernelSize, g)
  {
  }

  /** `guided_upsample` gets as far as the coarse grid: the reference has three channels, a
      given confidence has the aligned source's shape, and the aligned source has the
      reference's height and width. */
  predicate ReachesGrid(be: Backend, reference: Field, source: Field, kernelSize: real, confidence: Option<Field>)
    requires Arguments(reference, source, kernelSize)
  {
    var S := AlignSource(be, source, reference);
    && reference.c == 3
    && (confidence.Some? ==> SameShape(confidence.value, S))
    && S.h == reference.h && S.w == reference.w
  }

  /** `guided_upsample` from the point where the source is aligned and the weights chosen. */
  method Fitted(be: Backend, reference: Field, S: Field, W: Field, kernelSize: real,
                epsLuma: real, epsChroma: real, clipOutput: bool, steps: nat) returns (r: Result<Refinement>)
    requires reference.c == 3 && CoarseInput(reference, S, kernelSize) && GuidedInput(reference, S, kernelSize, steps)
    requires S.h == reference.h && S.w == reference.w && SameShape(W, S) && Positive(W)
    requires Positive(ResizeSpec(be, W, SmallShape(reference, kernelSize).0, SmallShape(reference, kernelSize).1))
    ensures r.Err? ==> r.error.Singular? && !AllSolvable(r.error.covariance)
    ensures r.Err? ==>
              exists g: CoarseStage :: g.weights == W && Moments(be, reference, S, kernelSize, g)
                                      && Covariance(g, epsLuma, epsChroma) && g.covariance == r.error.covariance
    ensures forall g: CoarseStage | g.weights == W && Moments(be, reference, S, kernelSize, g)
                                   && Covariance(g, epsLuma, epsChroma) ::
              (r.Ok? <==> AllSolvable(g.covariance))
    ensures r.Ok? ==>
              && r.value.coarse.weights == W
              && Moments(be, reference, S, kernelSize, r.value.coarse)
              && Covariance(r.value.coarse, epsLuma, epsChroma)
              && AllSolvable(r.value.coarse.covariance)
              && Fit(r.value.coarse, r.value.fine)
              && Output(be, reference, r.value.fine, clipOutput, steps)
  {
    var g := Coarse(be, reference, S, W, kernelSize, epsLuma, epsChroma);
    forall g2: CoarseStage | g2.weights == W && Moments(be, reference, S, kernelSize, g2) && Covariance(g2, epsLuma, epsChroma)
      ensures AllSolvable(g.covariance) <==> AllSolvable(g2.covariance)
    {
      CoarseDeterministic(be, reference, S, kernelSize, epsLuma, epsChroma, g, g2);
    }
    var ok := CheckSolvable(g.covariance);
    if !ok {
      return Err(Singular(g.covariance));
    }
    var f := Refine(be, reference, g, clipOutput, steps);
    r := Ok(Refinement(g, f));
  }

  /** The coarse relations determine the coarse stage: two runs on the same aligned source
      with the same weights have the same downsampled fields, the same regularised matrix
      and the same cross term at every coarse pixel. So whether the solve can proceed is
      decided by the inputs alone. */
  lemma CoarseDeterministic(be: Backend, reference: Field, S: Field, kernelSize: real, epsLuma: real, epsChroma: real,
                            g1: CoarseStage, g2: CoarseStage)
    requires reference.c == 3 && CoarseInput(reference, S, kernelSize) && S.h == reference.h && S.w == reference.w
    requires g1.weights == g2.weights
    requires Moments(be, reference, S, kernelSize, g1) && Covariance(g1, epsLuma, epsChroma)
    requires Moments(be, reference, S, kernelSize, g2) && Covariance(g2, epsLuma, epsChroma)
    ensures g1.referenceSmall == g2.referenceSmall && g1.sourceSmall == g2.sourceSmall
    ensures g1.outerMoment == g2.outerMoment && g1.crossMoment == g2.crossMoment
    ensures g1.covariance.h == g2.covariance.h && g1.covariance.w == g2.covariance.w
    ensures forall i: nat, j: nat | i < g1.covariance.h && j < g1.covariance.w ::
              PixelSym(g1.covariance, i, j) == PixelSym(g2.covariance, i, j)
    ensures forall i: nat, j: nat, k: nat | i < g1.cross.h && j < g1.cross.w && k < 3 ::
              g1.cross.at(i, j, k) == g2.cross.at(i, j, k)
    ensures AllSolvable(g1.covariance) <==> AllSolvable(g2.covariance)
  {
    assert g1.referenceSmall == g2.referenceSmall && g1.sourceSmall == g2.sourceSmall;
    assert g1.outerMoment == g2.outerMoment && g1.crossMoment == g2.crossMoment;
    SameCovariance(g1, g2, epsLuma, epsChroma);
  }

  /** Equal coarse moments give equal covariances and cross terms. */
  lemma SameCovariance(g1: CoarseStage, g2: CoarseStage, epsLuma: real, epsChroma: real)
    requires Covariance(g1, epsLuma, epsChroma) && Covariance(g2, epsLuma, epsChroma)
    requires g1.referenceSmall == g2.referenceSmall && g1.sourceSmall == g2.sourceSmall
    requires g1.outerMoment == g2.outerMoment && g1.crossMoment == g2.crossMoment
    ensures g1.covariance.h == g2.covariance.h && g1.covariance.w == g2.covariance.w
    ensures forall i: nat, j: nat | i < g1.covariance.h && j < g1.covariance.w ::
              PixelSym(g1.covariance, i, j) == PixelSym(g2.covariance, i, j)
    ensures forall i: nat, j: nat, k: nat | i < g1.cross.h && j < g1.cross.w && k < 3 ::
              g1.cross.at(i, j, k) == g2.cross.at(i, j, k)
    ensures AllSolvable(g1.covariance) <==> AllSolvable(g2.covariance)
  {
    var h, w := g1.referenceSmall.h, g1.referenceSmall.w;
    forall i: nat, j: nat | i < h && j < w
      ensures PixelSym(g1.covariance, i, j) == PixelSym(g2.covariance, i, j)
    {
      forall k: nat | k < 6
        ensures g1.rawCovariance.at(i, j, k) == g2.rawCovariance.at(i, j, k)
      {
      }
      assert PixelSym(g1.rawCovariance, i, j) == PixelSym(g2.rawCovariance, i, j);
    }
  }

  /** The coarse stage of `guided_upsample` on an aligned source S with weights W: the four
      weighted downsamples, the covariance and its regularisation, and the cross term. */
  method Coarse(be: Backend, reference: Field, S: Field, W: Field, kernelSize: real,
                epsLuma: real, epsChroma: real) returns (g: CoarseStage)
    requires reference.c == 3 && CoarseInput(reference, S, kernelSize)
    requires S.h == reference.h && S.w == reference.w && SameShape(W, S) && Positive(W)
    requires Positive(ResizeSpec(be, W, SmallShape(reference, kernelSize).0, SmallShape(reference, kernelSize).1))
    ensures g.weights == W
    ensures Moments(be, reference, S, kernelSize, g)
    ensures Covariance(g, epsLuma, epsChroma)
  {
    var (th, tw) := SmallShape(reference, kernelSize);
    var Rs := WeightedDownsample(be, reference, W, ByScale(kernelSize)).value;
    var Ss := WeightedDownsample(be, S, W, BySize(th, tw)).value;
    var Ms := WeightedDownsample(be, OuterProductImages(reference, reference).value, W, BySize(th, tw)).value;
    var Vs := WeightedDownsample(be, MulScalar(reference, S), W, BySize(th, tw)).value;
    var raw := Sub(Ms, OuterProductImages(Rs, Rs).value);
    var cov := RegularizeField(raw, epsLuma, epsChroma);
    var cross := Sub(Vs, MulScalar(Rs, Ss));
    g := CoarseStage(W, Rs, Ss, Ms, Vs, raw, cov, cross);
    CovarianceHolds(g, epsLuma, epsChroma);
  }

  /** The covariance relations hold of fields computed by differencing and regularising. */
  lemma CovarianceHolds(g: CoarseStage, epsLuma: real, epsChroma: real)
    requires CoarseShapes(g)
    requires g.rawCovariance == Sub(g.outerMoment, OuterProductImages(g.referenceSmall, g.referenceSmall).value)
    requires g.covariance == RegularizeField(g.rawCovariance, epsLuma, epsChroma)
    requires g.cross == Sub(g.crossMoment, MulScalar(g.referenceSmall, g.sourceSmall))
    ensures Covariance(g, epsLuma, epsChroma)
  {
    var h, w := g.referenceSmall.h, g.referenceSmall.w;
    var P := OuterProductImages(g.referenceSmall, g.referenceSmall).value;
    forall i: nat, j: nat, k: nat | i < h && j < w && k < 6
      ensures g.rawCovariance.at(i, j, k)
              == g.outerMoment.at(i, j, k) - Packed(Outer(PixelVec(g.referenceSmall, i, j), PixelVec(g.referenceSmall, i, j)), k)
    {
      assert P.at(i, j, k) == Packed(Outer(PixelVec(g.referenceSmall, i, j), PixelVec(g.referenceSmall, i, j)), k);
    }
  }

  /** The coarse fit holds of a solved and differenced covariance. */
  lemma FitHolds(g: CoarseStage, f: FineStage)
    requires CoarseShapes(g) && AllSolvable(g.covariance)
    requires f.coarseAffine == SolveImage(g.covariance, g.cross)
    requires f.coarseResidual == Sub(g.sourceSmall, Dot3(f.coarseAffine, g.referenceSmall))
    ensures Fit(g, f)
  {
  }

  /** The output relation holds of the upsampled fit combined with the reference. */
  lemma OutputHolds(be: Backend, reference: Field, f: FineStage, clipOutput: bool, steps: nat)
    requires reference.c == 3
    requires UpsampleInput(f.coarseAffine, reference.h, reference.w, steps) && f.coarseAffine.c == 3
    requires UpsampleInput(f.coarseResidual, reference.h, reference.w, steps) && f.coarseResidual.c == 1
    requires f.affine == SmoothSpec(be, f.coarseAffine, reference.h, reference.w, steps)
    requires f.residual == SmoothSpec(be, f.coarseResidual, reference.h, reference.w, steps)
    requires var sum := Add(Dot3(f.affine, reference), f.residual);
             f.output == if clipOutput then ClipField(sum) else sum
    ensures Output(be, reference, f, clipOutput, steps)
  {
    Combined(reference, f.affine, f.residual, f.output, clipOutput);
  }

  /** Every pixel of the combined output is a . reference + residual there, clipped when
      asked, and a clipped output lies in [0, 1]. */
  lemma Combined(reference: Field, A: Field, R: Field, out: Field, clipOutput: bool)
    requires reference.c == 3 && A.c == 3 && R.c == 1
    requires A.h == reference.h && A.w == reference.w && R.h == reference.h && R.w == reference.w
    requires var sum := Add(Dot3(A, reference), R);
             out == if clipOutput then ClipField(sum) else sum
    ensures Combines(reference, A, R, out, clipOutput)
  {
    var sum := Add(Dot3(A, reference), R);
    forall i: nat, j: nat | i < reference.h && j < reference.w
      ensures var v := A.at(i, j, 0) * reference.at(i, j, 0) + A.at(i, j, 1) * reference.at(i, j, 1)
                       + A.at(i, j, 2) * reference.at(i, j, 2) + R.at(i, j, 0);
              out.at(i, j, 0) == if clipOutput then Clip(v) else v
    {
      var d := Dot3(A, reference);
      assert d.at(i, j, 0) == A.at(i, j, 0) * reference.at(i, j, 0) + A.at(i, j, 1) * reference.at(i, j, 1)
                              + A.at(i, j, 2) * reference.at(i, j, 2);
      assert sum.at(i, j, 0) == d.at(i, j, 0) + R.at(i, j, 0);
    }
  }

  /** The fine stage of `guided_upsample`: solve every coarse pixel, take the residual,
      upsample both and combine them with the reference. */
  method Refine(be: Backend, reference: Field, g: CoarseStage, clipOutput: bool, steps: nat) returns (f: FineStage)
    requires reference.c == 3 && CoarseShapes(g) && AllSolvable(g.covariance)
    requires steps >= 1 && 2 * reference.h > steps && 2 * reference.w > steps
    ensures Fit(g, f) && Output(be, reference, f, clipOutput, steps)
  {
    var A := SolveImage(g.covariance, g.cross);
    var Res := Sub(g.sourceSmall, Dot3(A, g.referenceSmall));
    var Aup := SmoothUpsample(be, A, reference.h, reference.w, steps);
    var Rup := SmoothUpsample(be, Res, reference.h, reference.w, steps);
    var sum := Add(Dot3(Aup, reference), Rup);
    var out := if clipOutput then ClipField(sum) else sum;
    f := FineStage(A, Res, Aup, Rup, out);
    FitHolds(g, f);
    OutputHolds(be, reference, f, clipOutput, steps);
  }

  /** Weighted downsampling of a constant field under constant positive weights gives back
      the constant. */
  lemma ConstantDownsample(be: Backend, X: Field, W: Field, t: Target, v: real, kappa: real)
    requires Averages(be) && WeightedInput(X, W, t) && X.h == W.h && X.w == W.w
    requires Positive(ResizeSpec(be, W, TargetOf(X, t).0, TargetOf(X, t).1))
    requires InRange(X, v, v) && InRange(W, kappa, kappa) && kappa > 0.0
    ensures WeightedDownsample(be, X, W, t).Ok?
    ensures InRange(WeightedDownsample(be, X, W, t).value, v, v)
  {
    var th, tw := TargetOf(X, t).0, TargetOf(X, t).1;
    var P := MulScalar(X, W);
    ProductConstant(X, W, v, kappa);
    var N, D := ResizeSpec(be, P, th, tw), ResizeSpec(be, W, th, tw);
    ResizeBounds(be, P, th, tw, v * kappa, v * kappa);
    ResizeBounds(be, W, th, tw, kappa, kappa);
    assert Aligned(be, X, W) == X;
    assert WeightedDownsample(be, X, W, t) == Ok(Quotient(N, D));
    QuotientConstant(N, D, v, kappa);
  }

  /** Dividing a field that is v kappa everywhere by a denominator that is kappa everywhere,
      for kappa positive, gives v everywhere. */
  lemma QuotientConstant(N: Field, D: Field, v: real, kappa: real)
    requires N.h == D.h && N.w == D.w && D.c == 1
    requires InRange(N, v * kappa, v * kappa) && InRange(D, kappa, kappa) && kappa > 0.0
    ensures InRange(Quotient(N, D), v, v)
  {
    var R := Quotient(N, D);
    forall i: nat, j: nat, k: nat | i < R.h && j < R.w && k < R.c
      ensures R.at(i, j, k) == v
    {
      CancelFactor(R.at(i, j, k), v, kappa, D.at(i, j, 0), N.at(i, j, k));
    }
  }

  /** Under constant weights, a reference that is c in every channel and a source that is s
      everywhere have coarse fields that are constant too: c, s, c c and c s. */
  lemma FlatMoments(be: Backend, reference: Field, S: Field, kernelSize: real, g: CoarseStage,
                    c: real, s: real, kappa: real)
    requires Averages(be) && reference.c == 3 && CoarseInput(reference, S, kernelSize)
    requires S.h == reference.h && S.w == reference.w
    requires Moments(be, reference, S, kernelSize, g)
    requires InRange(reference, c, c) && InRange(S, s, s) && InRange(g.weights, kappa, kappa) && kappa > 0.0
    ensures InRange(g.referenceSmall, c, c) && InRange(g.sourceSmall, s, s)
    ensures InRange(g.outerMoment, c * c, c * c) && InRange(g.crossMoment, c * s, c * s)
  {
    var (th, tw) := SmallShape(reference, kernelSize);
    var W := g.weights;
    ConstantDownsample(be, reference, W, ByScale(kernelSize), c, kappa);
    ConstantDownsample(be, S, W, BySize(th, tw), s, kappa);
    var O := OuterProductImages(reference, reference).value;
    OuterConstant(reference, c);
    ConstantDownsample(be, O, W, BySize(th, tw), c * c, kappa);
    var V := MulScalar(reference, S);
    ProductConstant(reference, S, c, s);
    ConstantDownsample(be, V, W, BySize(th, tw), c * s, kappa);
  }

  /** The packed outer product of a field that is c in every channel is c c in every channel. */
  lemma OuterConstant(X: Field, c: real)
    requires X.c == 3 && InRange(X, c, c)
    ensures InRange(OuterProductImages(X, X).value, c * c, c * c)
  {
    var O := OuterProductImages(X, X).value;
    forall i: nat, j: nat, k: nat | i < O.h && j < O.w && k < O.c
      ensures O.at(i, j, k) == c * c
    {
      OuterImagesChannels(X, X, i, j, k);
      var a, b := X.at(i, j, TriuRow(k)), X.at(i, j, TriuCol(k));
      assert a == c && b == c;
    }
  }

  /** A field that is c in every channel times a scalar field that is s everywhere is c s in
      every channel. */
  lemma ProductConstant(X: Field, S: Field, c: real, s: real)
    requires X.h == S.h && X.w == S.w && S.c == 1 && InRange(X, c, c) && InRange(S, s, s)
    ensures InRange(MulScalar(X, S), c * s, c * s)
  {
    var V := MulScalar(X, S);
    forall i: nat, j: nat, k: nat | i < V.h && j < V.w && k < V.c
      ensures V.at(i, j, k) == c * s
    {
      var a, b := X.at(i, j, k), S.at(i, j, 0);
      assert a == c && b == s;
    }
  }

  /** Constant coarse fields leave a zero covariance before regularisation and a zero cross
      term, so every coarse pixel is solvable and its affine model is zero. */
  lemma FlatCoarse(g: CoarseStage, epsLuma: real, epsChroma: real, c: real, s: real)
    requires Covariance(g, epsLuma, epsChroma) && epsLuma != 0.0 && epsChroma != 0.0
    requires InRange(g.referenceSmall, c, c) && InRange(g.sourceSmall, s, s)
    requires InRange(g.outerMoment, c * c, c * c) && InRange(g.crossMoment, c * s, c * s)
    ensures forall i: nat, j: nat | i < g.covariance.h && j < g.covariance.w ::
              PixelSym(g.covariance, i, j) == Regularize(ZeroSym, epsLuma, epsChroma)
              && PixelVec(g.cross, i, j) == Zero3
    ensures AllSolvable(g.covariance)
  {
    FlatRegionFit(epsLuma, epsChroma);
    FlatRawCovariance(g, epsLuma, epsChroma, c);
    FlatCross(g, epsLuma, epsChroma, c, s);
  }

  /** Constant coarse fields leave a zero covariance before regularisation. */
  lemma FlatRawCovariance(g: CoarseStage, epsLuma: real, epsChroma: real, c: real)
    requires Covariance(g, epsLuma, epsChroma)
    requires InRange(g.referenceSmall, c, c) && InRange(g.outerMoment, c * c, c * c)
    ensures forall i: nat, j: nat | i < g.covariance.h && j < g.covariance.w ::
              PixelSym(g.covariance, i, j) == Regularize(ZeroSym, epsLuma, epsChroma)
  {
    var h, w := g.referenceSmall.h, g.referenceSmall.w;
    forall i: nat, j: nat | i < h && j < w
      ensures PixelSym(g.rawCovariance, i, j) == ZeroSym
    {
      var x := PixelVec(g.referenceSmall, i, j);
      assert x == Vec3(c, c, c);
      OuterFlat(c);
      forall k: nat | k < 6
        ensures g.rawCovariance.at(i, j, k) == 0.0
      {
        assert g.outerMoment.at(i, j, k) == c * c;
      }
    }
  }

  /** The outer product of a vector with one value c in every component is c c everywhere. */
  lemma OuterFlat(c: real)
    ensures Outer(Vec3(c, c, c), Vec3(c, c, c)) == Sym3(c * c, c * c, c * c, c * c, c * c, c * c)
  {
  }

  /** Constant coarse fields leave a zero cross term. */
  lemma FlatCross(g: CoarseStage, epsLuma: real, epsChroma: real, c: real, s: real)
    requires Covariance(g, epsLuma, epsChroma)
    requires InRange(g.referenceSmall, c, c) && InRange(g.sourceSmall, s, s) && InRange(g.crossMoment, c * s, c * s)
    ensures forall i: nat, j: nat | i < g.cross.h && j < g.cross.w :: PixelVec(g.cross, i, j) == Zero3
  {
    var h, w := g.referenceSmall.h, g.referenceSmall.w;
    forall i: nat, j: nat | i < h && j < w
      ensures PixelVec(g.cross, i, j) == Zero3
    {
      forall k: nat | k < 3
        ensures g.cross.at(i, j, k) == 0.0
      {
        assert g.crossMoment.at(i, j, k) == c * s;
        assert g.referenceSmall.at(i, j, k) == c && g.sourceSmall.at(i, j, 0) == s;
      }
    }
  }

  /** With a zero cross term on a regularised zero covariance, the coarse fit is the zero
      affine model, and the residual is the coarse source. */
  lemma FlatFit(g: CoarseStage, f: FineStage, epsLuma: real, epsChroma: real, s: real)
    requires Fit(g, f) && epsLuma != 0.0 && epsChroma != 0.0 && InRange(g.sourceSmall, s, s)
    requires forall i: nat, j: nat | i < g.covariance.h && j < g.covariance.w ::
               PixelSym(g.covariance, i, j) == Regularize(ZeroSym, epsLuma, epsChroma)
               && PixelVec(g.cross, i, j) == Zero3
    ensures InRange(f.coarseAffine, 0.0, 0.0) && InRange(f.coarseResidual, s, s)
  {
    FlatRegionFit(epsLuma, epsChroma);
    var m := Regularize(ZeroSym, epsLuma, epsChroma);
    forall i: nat, j: nat | i < f.coarseAffine.h && j < f.coarseAffine.w
      ensures PixelVec(f.coarseAffine, i, j) == Zero3
      ensures f.coarseResidual.at(i, j, 0) == s
    {
      SolveUnique(m, Zero3, PixelVec(f.coarseAffine, i, j));
      assert g.sourceSmall.at(i, j, 0) == s;
    }
  }

  /** A zero affine model and a residual of s upsample to the same, so every output pixel is
      s, clipped or not, for s in [0, 1]. */
  lemma FlatOutput(be: Backend, reference: Field, f: FineStage, clipOutput: bool, steps: nat, s: real)
    requires Averages(be) && Output(be, reference, f, clipOutput, steps) && 0.0 <= s <= 1.0
    requires InRange(f.coarseAffine, 0.0, 0.0) && InRange(f.coarseResidual, s, s)
    ensures forall i: nat, j: nat | i < reference.h && j < reference.w :: f.output.at(i, j, 0) == s
  {
    SmoothBounds(be, f.coarseAffine, reference.h, reference.w, steps, 0.0, 0.0);
    SmoothBounds(be, f.coarseResidual, reference.h, reference.w, steps, s, s);
    FlatCombines(reference, f.affine, f.residual, f.output, clipOutput, s);
  }

  /** Combining a zero affine model with a residual of s in [0, 1] gives s at every pixel. */
  lemma FlatCombines(reference: Field, A: Field, R: Field, out: Field, clipOutput: bool, s: real)
    requires Combines(reference, A, R, out, clipOutput) && 0.0 <= s <= 1.0
    requires A.h == reference.h && A.w == reference.w && A.c == 3 && R.h == reference.h && R.w == reference.w && R.c == 1
    requires InRange(A, 0.0, 0.0) && InRange(R, s, s)
    ensures forall i: nat, j: nat | i < reference.h && j < reference.w :: out.at(i, j, 0) == s
  {
    forall i: nat, j: nat | i < reference.h && j < reference.w
      ensures out.at(i, j, 0) == s
    {
      assert A.at(i, j, 0) == 0.0 && A.at(i, j, 1) == 0.0 && A.at(i, j, 2) == 0.0;
      assert R.at(i, j, 0) == s;
      FlatPixel(A.at(i, j, 0), A.at(i, j, 1), A.at(i, j, 2),
                reference.at(i, j, 0), reference.at(i, j, 1), reference.at(i, j, 2), R.at(i, j, 0), s, clipOutput);
    }
  }

  /** One output pixel of a zero affine model and a residual of s in [0, 1] is s. */
  lemma FlatPixel(a0: real, a1: real, a2: real, x0: real, x1: real, x2: real, e: real, s: real, clipOutput: bool)
    requires a0 == 0.0 && a1 == 0.0 && a2 == 0.0 && e == s && 0.0 <= s <= 1.0
    ensures var v := a0 * x0 + a1 * x1 + a2 * x2 + e;
            (if clipOutput then Clip(v) else v) == s
  {
  }

  /** A flat grey guide gives back a flat source. When the reference is one value c in every
      channel, the source is one value s in [0, 1] at the reference's size, and the
      confidence is computed from the source, the upsampler succeeds on a coarse grid of at
      least 2 x 2 and returns s at every pixel. */
  method FlatGuide(be: Backend, reference: Field, source: Field, kernelSize: real, c: real, s: real,
                   epsLuma: real, epsChroma: real, clipOutput: bool, steps: nat) returns (r: Result<Refinement>)
    requires Averages(be) && GuidedInput(reference, source, kernelSize, steps)
    requires reference.c == 3 && source.h == reference.h && source.w == reference.w
    requires InRange(reference, c, c) && InRange(source, s, s) && 0.0 <= s <= 1.0
    requires epsLuma != 0.0 && epsChroma != 0.0
    requires SmallShape(reference, kernelSize).0 >= 2 && SmallShape(reference, kernelSize).1 >= 2
    ensures r.Ok?
    ensures forall i: nat, j: nat | i < reference.h && j < reference.w :: r.value.fine.output.at(i, j, 0) == s
  {
    r := GuidedUpsample(be, reference, source, kernelSize, None, epsLuma, epsChroma, clipOutput, steps);
    var W := ConfidenceField(source);
    FlatConfidence(source, s);
    ResizeBounds(be, W, SmallShape(reference, kernelSize).0, SmallShape(reference, kernelSize).1, 0.0, 0.0);
    var g := Coarse(be, reference, source, W, kernelSize, epsLuma, epsChroma);
    FlatRun(be, reference, source, kernelSize, c, s, epsLuma, epsChroma, g);
    assert r.Ok?;
    FlatRun(be, reference, source, kernelSize, c, s, epsLuma, epsChroma, r.value.coarse);
    FlatFit(r.value.coarse, r.value.fine, epsLuma, epsChroma, s);
    FlatOutput(be, reference, r.value.fine, clipOutput, steps, s);
  }

  /** The confidence of a source that is s everywhere is one value everywhere. */
  lemma FlatConfidence(source: Field, s: real)
    requires InRange(source, s, s)
    ensures InRange(ConfidenceField(source), ProbabilityToConfidence(s, LowThresh, HighThresh),
                    ProbabilityToConfidence(s, LowThresh, HighThresh))
  {
    var W := ConfidenceField(source);
    forall i: nat, j: nat, k: nat | i < W.h && j < W.w && k < W.c
      ensures W.at(i, j, k) == ProbabilityToConfidence(s, LowThresh, HighThresh)
    {
      assert source.at(i, j, k) == s;
    }
  }

  /** The coarse stage of a run on a flat grey reference and a flat source, with the
      confidence computed from the source, has a regularised zero covariance and a zero
      cross term at every coarse pixel, and so can be solved. */
  lemma FlatRun(be: Backend, reference: Field, source: Field, kernelSize: real, c: real, s: real,
                epsLuma: real, epsChroma: real, g: CoarseStage)
    requires Averages(be) && reference.c == 3 && CoarseInput(reference, source, kernelSize)
    requires source.h == reference.h && source.w == reference.w
    requires InRange(reference, c, c) && InRange(source, s, s) && epsLuma != 0.0 && epsChroma != 0.0
    requires g.weights == ConfidenceField(source) && Moments(be, reference, source, kernelSize, g)
    requires Covariance(g, epsLuma, epsChroma)
    ensures Downsampled(be, reference, source, kernelSize, None, g)
    ensures InRange(g.sourceSmall, s, s) && AllSolvable(g.covariance)
    ensures forall i: nat, j: nat | i < g.covariance.h && j < g.covariance.w ::
              PixelSym(g.covariance, i, j) == Regularize(ZeroSym, epsLuma, epsChroma)
              && PixelVec(g.cross, i, j) == Zero3
  {
    assert AlignSource(be, source, reference) == source;
    var kappa := ProbabilityToConfidence(s, LowThresh, HighThresh);
    FlatConfidence(source, s);
    FlatMoments(be, reference, source, kernelSize, g, c, s, kappa);
    FlatCoarse(g, epsLuma, epsChroma, c, s);
  }
}

=== FILE: pyramid.dfy ===
/** The anti-aliased pyramid: low-pass halving, resizing through the pyramid with the
    more-than-4-channel split, and the multi-step smooth upsampler (skyseg.py,
    `downsample2_antialiased`, `resize_helper`, `resize`, `smooth_upsample`). */
module Pyramid {
  import opened Fields
  import opened Reals
  import opened Rounding

  /** The two OpenCV primitives the pyramid is built on, which this model does not define.
      Each gives the values of its output; the output's shape is fixed by the call:
      `filterValues(X, k)` stands for `cv2.sepFilter2D(X, -1, k, k, anchor=(1, 1),
      borderType=cv2.BORDER_REPLICATE)`, which keeps the shape of X (`ddepth = -1`), and
      `resizeValues(X, h, w)` for `cv2.resize(X, dsize=(w, h), interpolation=cv2.INTER_LINEAR)`,
      which yields h x w with the channels of X. */
  datatype Backend = Backend(filterValues: (Field, seq<real>) -> ((nat, nat, nat) -> real),
                             resizeValues: (Field, nat, nat) -> ((nat, nat, nat) -> real))

  function Filter(be: Backend, X: Field, k: seq<real>): (r: Field)
    ensures SameShape(r, X)
  {
    Field(X.h, X.w, X.c, be.filterValues(X, k))
  }

  function Interp(be: Backend, X: Field, h: nat, w: nat): (r: Field)
    ensures r.h == h && r.w == w && r.c == X.c
  {
    Field(h, w, X.c, be.resizeValues(X, h, w))
  }

  function Sum(s: seq<real>): real {
    if |s| == 0 then 0.0 else Sum(s[..|s| - 1]) + s[|s| - 1]
  }

  /** A kernel of non-negative taps that sum to 1: filtering with it takes weighted means. */
  ghost predicate Averaging(k: seq<real>) {
    (forall i | 0 <= i < |k| :: k[i] >= 0.0) && Sum(k) == 1.0
  }

  predicate NonEmpty(X: Field) {
    X.h >= 1 && X.w >= 1
  }

  /** What the bound and sign facts rely on about the two primitives. Both compute, per output
      value, a weighted mean of input values with non-negative weights (a separable filter
      with an averaging kernel; bilinear interpolation of a non-empty input), so they keep
      every bound and every sign of their input. */
  ghost predicate Averages(be: Backend) {
    && (forall X: Field, k: seq<real>, lo: real, hi: real | Averaging(k) && InRange(X, lo, hi) ::
          InRange(Filter(be, X, k), lo, hi))
    && (forall X: Field, k: seq<real> | Averaging(k) && Positive(X) :: Positive(Filter(be, X, k)))
    && (forall X: Field, h: nat, w: nat, lo: real, hi: real | NonEmpty(X) && InRange(X, lo, hi) ::
          InRange(Interp(be, X, h, w), lo, hi))
    && (forall X: Field, h: nat, w: nat | NonEmpty(X) && Positive(X) :: Positive(Interp(be, X, h, w)))
  }

  /** What the content facts rely on: the primitives read nothing outside their input's extent. */
  ghost predicate Extensional(be: Backend) {
    && (forall X: Field, Y: Field, k: seq<real> | Equiv(X, Y) :: Equiv(Filter(be, X, k), Filter(be, Y, k)))
    && (forall X: Field, Y: Field, h: nat, w: nat | NonEmpty(X) && Equiv(X, Y) ::
          Equiv(Interp(be, X, h, w), Interp(be, Y, h, w)))
  }

  /** A backend meeting both laws: the identity filter and the resize that spreads the top-left
      pixel. So the laws are consistent and every lemma that assumes them can be applied. */
  const WitnessBackend: Backend :=
    Backend((X: Field, k: seq<real>) => X.at,
            (X: Field, h: nat, w: nat) => (i: nat, j: nat, c: nat) => X.at(0, 0, c))

  lemma WitnessIsLawful()
    ensures Averages(WitnessBackend) && Extensional(WitnessBackend)
  {
    var be := WitnessBackend;
    forall X: Field, h: nat, w: nat, lo: real, hi: real | NonEmpty(X) && InRange(X, lo, hi)
      ensures InRange(Interp(be, X, h, w), lo, hi)
    {
      var R := Interp(be, X, h, w);
      forall i: nat, j: nat, c: nat | i < R.h && j < R.w && c < R.c
        ensures lo <= R.at(i, j, c) <= hi
      {
        assert R.at(i, j, c) == X.at(0, 0, c);
      }
    }
    forall X: Field, h: nat, w: nat | NonEmpty(X) && Positive(X)
      ensures Positive(Interp(be, X, h, w))
    {
      var R := Interp(be, X, h, w);
      forall i: nat, j: nat, c: nat | i < R.h && j < R.w && c < R.c
        ensures 0.0 < R.at(i, j, c)
      {
        assert R.at(i, j, c) == X.at(0, 0, c);
      }
    }
    forall X: Field, Y: Field, h: nat, w: nat | NonEmpty(X) && Equiv(X, Y)
      ensures Equiv(Interp(be, X, h, w), Interp(be, Y, h, w))
    {
      var R, S := Interp(be, X, h, w), Interp(be, Y, h, w);
      forall i: nat, j: nat, c: nat | i < R.h && j < R.w && c < R.c
        ensures R.at(i, j, c) == S.at(i, j, c)
      {
        assert R.at(i, j, c) == X.at(0, 0, c) && S.at(i, j, c) == Y.at(0, 0, c);
      }
    }
  }

  /** The separable low-pass kernel [1, 3, 3, 1] / 8 of `downsample2_antialiased`. */
  const AntialiasKernel: seq<real> := [1.0 / 8.0, 3.0 / 8.0, 3.0 / 8.0, 1.0 / 8.0]

  /** The kernel is symmetric, non-negative and sums to 1, so filtering with it averages. */
  lemma KernelAverages()
    ensures Averaging(AntialiasKernel)
    ensures forall i | 0 <= i < 4 :: AntialiasKernel[i] == AntialiasKernel[3 - i]
  {
    var k := AntialiasKernel;
    assert k[..3][..2][..1][..0] == [];
    assert k[..3][..2] == k[..2] && k[..2][..1] == k[..1];
    assert Sum(k[..1]) == 1.0 / 8.0;
    assert Sum(k[..2]) == 4.0 / 8.0;
    assert Sum(k[..3]) == 7.0 / 8.0;
    assert k[..4] == k;
  }

  /** `dst[::2, ::2]`: the even rows and even columns of F, whose count is the ceiling of
      half the input's. */
  function EverySecond(F: Field): (r: Field)
    ensures F.h <= 2 * r.h <= F.h + 1 && F.w <= 2 * r.w <= F.w + 1 && r.c == F.c
    ensures forall i: nat, j: nat, k: nat | i < r.h && j < r.w && k < r.c ::
              2 * i < F.h && 2 * j < F.w && r.at(i, j, k) == F.at(2 * i, 2 * j, k)
  {
    Field((F.h + 1) / 2, (F.w + 1) / 2, F.c, (i: nat, j: nat, k: nat) => F.at(2 * i, 2 * j, k))
  }

  /** `downsample2_antialiased`: low-pass filter, then keep every second row and column.
      An h x w field becomes ceil(h/2) x ceil(w/2). */
  function Downsample2(be: Backend, X: Field): (r: Field)
    ensures X.h <= 2 * r.h <= X.h + 1 && X.w <= 2 * r.w <= X.w + 1 && r.c == X.c
  {
    EverySecond(Filter(be, X, AntialiasKernel))
  }

  /** The loop guard of `resize_helper`: both dimensions are at least twice the target. */
  predicate KeepHalving(h: nat, w: nat, th: nat, tw: nat) {
    h >= 2 * th && w >= 2 * tw
  }

  /** A dimension after k halvings. */
  function HalveN(n: nat, k: nat): nat {
    if k == 0 then n else HalveN((n + 1) / 2, k - 1)
  }

  /** The number of halvings the loop of `resize_helper` performs on an h x w field. */
  function Halvings(h: nat, w: nat, th: nat, tw: nat): nat
    requires th >= 1 && tw >= 1
    decreases h
  {
    if KeepHalving(h, w, th, tw) then 1 + Halvings((h + 1) / 2, (w + 1) / 2, th, tw) else 0
  }

  /** The field the loop of `resize_helper` stops at: halve while both dimensions are at least
      twice the target. With positive targets the height strictly decreases, so this ends. */
  function PyramidLevel(be: Backend, X: Field, th: nat, tw: nat): (r: Field)
    requires th >= 1 && tw >= 1
    ensures r.c == X.c && r.h <= X.h && r.w <= X.w
    ensures !KeepHalving(r.h, r.w, th, tw)
    ensures NonEmpty(X) ==> NonEmpty(r)
    decreases X.h
  {
    if KeepHalving(X.h, X.w, th, tw) then PyramidLevel(be, Downsample2(be, X), th, tw) else X
  }

  /** The halving loop ends with some dimension below twice the target, after exactly
      Halvings(...) halvings, each taken while both dimensions were still at least twice it;
      the channels are kept and a non-empty field stays non-empty. */
  lemma {:induction false} PyramidLevelShape(be: Backend, X: Field, th: nat, tw: nat)
    requires th >= 1 && tw >= 1
    ensures var L := Halvings(X.h, X.w, th, tw);
            var r := PyramidLevel(be, X, th, tw);
            && r.c == X.c
            && (NonEmpty(X) ==> NonEmpty(r))
            && r.h == HalveN(X.h, L) && r.w == HalveN(X.w, L)
            && !KeepHalving(r.h, r.w, th, tw)
            && forall j: nat | j < L :: KeepHalving(HalveN(X.h, j), HalveN(X.w, j), th, tw)
    decreases X.h
  {
    if KeepHalving(X.h, X.w, th, tw) {
      var D := Downsample2(be, X);
      assert D.h == (X.h + 1) / 2 && D.w == (X.w + 1) / 2;
      PyramidLevelShape(be, D, th, tw);
      var L := Halvings(X.h, X.w, th, tw);
      forall j: nat | j < L
        ensures KeepHalving(HalveN(X.h, j), HalveN(X.w, j), th, tw)
      {
        if j > 0 {
          assert HalveN(X.h, j) == HalveN(D.h, j - 1);
          assert HalveN(X.w, j) == HalveN(D.w, j - 1);
        }
      }
      assert HalveN(X.h, L) == HalveN(D.h, L - 1);
      assert HalveN(X.w, L) == HalveN(D.w, L - 1);
    }
  }

  /** Halving keeps every bound and the sign of its input. */
  lemma Downsample2Bounds(be: Backend, X: Field, lo: real, hi: real)
    requires Averages(be)
    ensures InRange(X, lo, hi) ==> InRange(Downsample2(be, X), lo, hi)
    ensures Positive(X) ==> Positive(Downsample2(be, X))
  {
    KernelAverages();
    var F := Filter(be, X, AntialiasKernel);
    var D := Downsample2(be, X);
    if InRange(X, lo, hi) {
      assert InRange(F, lo, hi);
      forall i: nat, j: nat, k: nat | i < D.h && j < D.w && k < D.c
        ensures lo <= D.at(i, j, k) <= hi
      {
        assert D.at(i, j, k) == F.at(2 * i, 2 * j, k);
      }
    }
    if Positive(X) {
      assert Positive(F);
      forall i: nat, j: nat, k: nat | i < D.h && j < D.w && k < D.c
        ensures 0.0 < D.at(i, j, k)
      {
        assert D.at(i, j, k) == F.at(2 * i, 2 * j, k);
      }
    }
  }

  /** Halving depends only on the contents of its input. */
  lemma Downsample2Equiv(be: Backend, X: Field, Y: Field)
    requires Extensional(be) && Equiv(X, Y)
    ensures Equiv(Downsample2(be, X), Downsample2(be, Y))
  {
    var F, G := Filter(be, X, AntialiasKernel), Filter(be, Y, AntialiasKernel);
    assert Equiv(F, G);
    var D, E := Downsample2(be, X), Downsample2(be, Y);
    forall i: nat, j: nat, k: nat | i < D.h && j < D.w && k < D.c
      ensures D.at(i, j, k) == E.at(i, j, k)
    {
      assert D.at(i, j, k) == F.at(2 * i, 2 * j, k) && E.at(i, j, k) == G.at(2 * i, 2 * j, k);
    }
  }

  /** The pyramid level keeps the bounds and signs of its input. */
  lemma {:induction false} PyramidLevelBounds(be: Backend, X: Field, th: nat, tw: nat, lo: real, hi: real)
    requires Averages(be) && th >= 1 && tw >= 1
    ensures InRange(X, lo, hi) ==> InRange(PyramidLevel(be, X, th, tw), lo, hi)
    ensures Positive(X) ==> Positive(PyramidLevel(be, X, th, tw))
    decreases X.h
  {
    if KeepHalving(X.h, X.w, th, tw) {
      Downsample2Bounds(be, X, lo, hi);
      PyramidLevelBounds(be, Downsample2(be, X), th, tw, lo, hi);
    }
  }

  /** The pyramid level depends only on the contents of its input. */
  lemma {:induction false} PyramidLevelEquiv(be: Backend, X: Field, Y: Field, th: nat, tw: nat)
    requires Extensional(be) && th >= 1 && tw >= 1 && Equiv(X, Y)
    ensures Equiv(PyramidLevel(be, X, th, tw), PyramidLevel(be, Y, th, tw))
    decreases X.h
  {
    if KeepHalving(X.h, X.w, th, tw) {
      Downsample2Equiv(be, X, Y);
      PyramidLevelEquiv(be, Downsample2(be, X), Downsample2(be, Y), th, tw);
    }
  }

  /** `resize_helper` as a function: the final bilinear resize of the pyramid level. */
  function HelperSpec(be: Backend, X: Field, th: nat, tw: nat): (r: Field)
    requires th >= 1 && tw >= 1 && 1 <= X.c <= 4 && NonEmpty(X)
    ensures r.h == th && r.w == tw && r.c == X.c
  {
    PyramidLevelShape(be, X, th, tw);
    Interp(be, PyramidLevel(be, X, th, tw), th, tw)
  }

  /** `resize_helper`: halve while both dimensions are at least twice the target, then one
      bilinear resize to exactly the target shape. */
  method ResizeHelper(be: Backend, X: Field, th: nat, tw: nat) returns (Y: Field)
    requires th >= 1 && tw >= 1 && 1 <= X.c <= 4 && NonEmpty(X)
    ensures Y.h == th && Y.w == tw && Y.c == X.c
    ensures Y == HelperSpec(be, X, th, tw)
  {
    var cur := X;
    while cur.h >= th * 2 && cur.w >= tw * 2
      invariant PyramidLevel(be, cur, th, tw) == PyramidLevel(be, X, th, tw)
      invariant cur.c == X.c
      decreases cur.h
    {
      cur := Downsample2(be, cur);
    }
    Y := Interp(be, cur, th, tw);
  }

  /** `resize` as a function: fields of more than 4 channels go through `resize_helper` as
      channels [0, 3) and [3, C) and are concatenated back. */
  function ResizeSpec(be: Backend, X: Field, th: nat, tw: nat): (r: Field)
    requires th >= 1 && tw >= 1 && 1 <= X.c <= 7 && NonEmpty(X)
    ensures r.h == th && r.w == tw && r.c == X.c
  {
    if X.c <= 4 then HelperSpec(be, X, th, tw)
    else Concat(HelperSpec(be, Slice(X, 0, 3), th, tw), HelperSpec(be, Slice(X, 3, X.c), th, tw))
  }

  /** `resize`: resizes a field of 1 to 7 channels to exactly th x tw, keeping its channels. */
  method Resize(be: Backend, X: Field, th: nat, tw: nat) returns (Y: Field)
    requires th >= 1 && tw >= 1 && 1 <= X.c <= 7 && NonEmpty(X)
    ensures Y.h == th && Y.w == tw && Y.c == X.c
    ensures Y == ResizeSpec(be, X, th, tw)
  {
    if X.c <= 4 {
      Y := ResizeHelper(be, X, th, tw);
    } else {
      var Y1 := ResizeHelper(be, Slice(X, 0, 3), th, tw);
      var Y2 := ResizeHelper(be, Slice(X, 3, X.c), th, tw);
      Y := Concat(Y1, Y2);
    }
  }

  /** The split keeps channel order: channels [0, 3) of the result are the resize of
      channels [0, 3) of the input, and channels [3, C) that of channels [3, C). */
  lemma ResizeKeepsChannelOrder(be: Backend, X: Field, th: nat, tw: nat)
    requires th >= 1 && tw >= 1 && 4 < X.c <= 7 && NonEmpty(X)
    ensures Equiv(Slice(ResizeSpec(be, X, th, tw), 0, 3), HelperSpec(be, Slice(X, 0, 3), th, tw))
    ensures Equiv(Slice(ResizeSpec(be, X, th, tw), 3, X.c), HelperSpec(be, Slice(X, 3, X.c), th, tw))
  {
    ConcatSlices(HelperSpec(be, Slice(X, 0, 3), th, tw), HelperSpec(be, Slice(X, 3, X.c), th, tw));
  }

  lemma HelperBounds(be: Backend, X: Field, th: nat, tw: nat, lo: real, hi: real)
    requires Averages(be) && th >= 1 && tw >= 1 && 1 <= X.c <= 4 && NonEmpty(X)
    ensures InRange(X, lo, hi) ==> InRange(HelperSpec(be, X, th, tw), lo, hi)
    ensures Positive(X) ==> Positive(HelperSpec(be, X, th, tw))
  {
    PyramidLevelShape(be, X, th, tw);
    PyramidLevelBounds(be, X, th, tw, lo, hi);
  }

  lemma HelperEquiv(be: Backend, X: Field, Y: Field, th: nat, tw: nat)
    requires Extensional(be) && th >= 1 && tw >= 1 && 1 <= X.c <= 4 && NonEmpty(X) && Equiv(X, Y)
    ensures Equiv(HelperSpec(be, X, th, tw), HelperSpec(be, Y, th, tw))
  {
    PyramidLevelShape(be, X, th, tw);
    PyramidLevelEquiv(be, X, Y, th, tw);
  }

  /** Resizing keeps the bounds and signs of its input. */
  lemma ResizeBounds(be: Backend, X: Field, th: nat, tw: nat, lo: real, hi: real)
    requires Averages(be) && th >= 1 && tw >= 1 && 1 <= X.c <= 7 && NonEmpty(X)
    ensures InRange(X, lo, hi) ==> InRange(ResizeSpec(be, X, th, tw), lo, hi)
    ensures Positive(X) ==> Positive(ResizeSpec(be, X, th, tw))
  {
    if X.c <= 4 {
      HelperBounds(be, X, th, tw, lo, hi);
    } else {
      var XA, XB := Slice(X, 0, 3), Slice(X, 3, X.c);
      SlicePreserves(X, X, 0, 3, lo, hi);
      SlicePreserves(X, X, 3, X.c, lo, hi);
      HelperBounds(be, XA, th, tw, lo, hi);
      HelperBounds(be, XB, th, tw, lo, hi);
      var RA, RB := HelperSpec(be, XA, th, tw), HelperSpec(be, XB, th, tw);
      ConcatPreserves(RA, RB, RA, RB, lo, hi);
    }
  }

  /** Resizing depends only on the contents of its input. */
  lemma ResizeEquiv(be: Backend, X: Field, Y: Field, th: nat, tw: nat)
    requires Extensional(be) && th >= 1 && tw >= 1 && 1 <= X.c <= 7 && NonEmpty(X) && Equiv(X, Y)
    ensures Equiv(ResizeSpec(be, X, th, tw), ResizeSpec(be, Y, th, tw))
  {
    if X.c <= 4 {
      HelperEquiv(be, X, Y, th, tw);
    } else {
      var XA, XB := Slice(X, 0, 3), Slice(X, 3, X.c);
      var YA, YB := Slice(Y, 0, 3), Slice(Y, 3, X.c);
      SlicePreserves(X, Y, 0, 3, 0.0, 0.0);
      SlicePreserves(X, Y, 3, X.c, 0.0, 0.0);
      HelperEquiv(be, XA, YA, th, tw);
      HelperEquiv(be, XB, YB, th, tw);
      ConcatPreserves(HelperSpec(be, XA, th, tw), HelperSpec(be, XB, th, tw),
                      HelperSpec(be, YA, th, tw), HelperSpec(be, YB, th, tw), 0.0, 0.0);
    }
  }

  /** The default step count of `smooth_upsample`, `max(1, round(log4ratio))`, from the
      largest per-axis value of 0.5 log2(size / shape), which is given rather than computed.
      It is at least 1, and it is the rounded value whenever that is at least 1. */
  function DefaultSteps(log4ratio: real): (n: nat)
    ensures n >= 1
    ensures RoundHalfEven(log4ratio) >= 1 ==> n == RoundHalfEven(log4ratio)
    ensures log4ratio < 1.5 ==> n == 1
  {
    var r := RoundHalfEven(log4ratio);
    if r < 1 then 1 else r
  }

  /** The size step k of `smooth_upsample` aims at before rounding, computed as the source
      does: the ratio size / shape, times shape, over the number of steps n, times k. */
  function StepValue(shape: nat, size: nat, n: nat, k: nat): (v: real)
    requires shape >= 1 && n >= 1
    ensures v == ((k * size) as real) / (n as real)
  {
    var ratio := (size as real) / (shape as real);
    var v := (k as real) * ((shape as real) * ratio / (n as real));
    assert (k * size) as real == (k as real) * (size as real);
    CancelShape(shape as real, size as real, n as real, k as real);
    v
  }

  /** The arithmetic of StepValue over free reals: k (s (S / s) / n) == (k S) / n. */
  lemma CancelShape(s: real, S: real, n: real, k: real)
    requires s != 0.0 && n != 0.0
    ensures k * (s * (S / s) / n) == (k * S) / n
  {
    DivCancel(S, s);
    assert s * (S / s) == S;
    DivCancel(k * S, n);
    DivCancel(S, n);
    assert (k * (S / n)) * n == k * S;
    SolveFactor(n, k * (S / n), k * S);
  }

  /** The target of step k, rounded half to even as `np.round` does. The shape cancels:
      step k targets round(k * size / n), a linear schedule. */
  function StepTarget(shape: nat, size: nat, n: nat, k: nat): (r: nat)
    requires shape >= 1 && n >= 1
    ensures r == RoundHalfEven(((k * size) as real) / (n as real))
  {
    DivNonNegative((k * size) as real, n as real);
    RoundNat(StepValue(shape, size, n, k))
  }

  /** Later steps never target a smaller size. */
  lemma ScheduleMonotone(shape: nat, size: nat, n: nat, k1: nat, k2: nat)
    requires shape >= 1 && n >= 1 && k1 <= k2
    ensures StepTarget(shape, size, n, k1) <= StepTarget(shape, size, n, k2)
  {
    assert k1 * size <= k2 * size by {
      MulNonNegative((k2 - k1) as real, size as real);
    }
    QuotientLe((k1 * size) as real, n as real, (k2 * size) as real, n as real);
    RoundMonotone(((k1 * size) as real) / (n as real), ((k2 * size) as real) / (n as real));
  }

  /** The last step lands exactly on the requested size, whatever the input's shape. */
  lemma ScheduleLast(shape: nat, size: nat, n: nat)
    requires shape >= 1 && n >= 1
    ensures StepTarget(shape, size, n, n) == size
  {
    assert ((n * size) as real) / (n as real) == size as real by {
      SolveFactor(n as real, size as real, (n * size) as real);
    }
    RoundInteger(size);
  }

  /** Every step targets a size between 1 and the final one, provided the first step
      already rounds to at least 1 (2 size > n). */
  lemma ScheduleBounds(shape: nat, size: nat, n: nat, k: nat)
    requires shape >= 1 && n >= 1 && 1 <= k <= n && 2 * size > n
    ensures 1 <= StepTarget(shape, size, n, k) <= size
  {
    ScheduleMonotone(shape, size, n, k, n);
    ScheduleLast(shape, size, n);
    ScheduleMonotone(shape, size, n, 1, k);
    assert (size as real) / (n as real) > 0.5 by {
      QuotientLe(1.0, 2.0, size as real, n as real);
      assert (size as real) / (n as real) != 0.5 by {
        if (size as real) / (n as real) == 0.5 {
          DivCancel(size as real, n as real);
        }
      }
    }
    RoundAtLeastOne((size as real) / (n as real));
  }

  /** The targets of all n steps, in order: entry k - 1 is the target of step k. The targets
      never decrease and the last one is the requested size. When 2 size > n every target is
      at least 1 as well. A target with a 0 in it would make `resize_helper` fail: a 0 x 0
      target keeps its halving loop going forever, and a target with one 0 makes
      `cv2.resize` reject the empty size. */
  function Schedule(shape: nat, size: nat, n: nat): (r: seq<nat>)
    requires shape >= 1 && n >= 1
    ensures |r| == n
    ensures forall k: nat | 1 <= k <= n :: r[k - 1] == StepTarget(shape, size, n, k)
    ensures forall i, j | 0 <= i <= j < n :: r[i] <= r[j]
    ensures r[n - 1] == size
    ensures 2 * size > n ==> forall i | 0 <= i < n :: 1 <= r[i] <= size
  {
    var r := seq(n, (i: int) requires 0 <= i < n => StepTarget(shape, size, n, i + 1));
    ScheduleEntries(shape, size, n, r);
    r
  }

  /** The facts of `Schedule` for any sequence whose entries are the step targets. */
  lemma ScheduleEntries(shape: nat, size: nat, n: nat, s: seq<nat>)
    requires shape >= 1 && n >= 1 && |s| == n
    requires forall i | 0 <= i < n :: s[i] == StepTarget(shape, size, n, i + 1)
    ensures forall i, j | 0 <= i <= j < n :: s[i] <= s[j]
    ensures s[n - 1] == size
    ensures 2 * size > n ==> forall i | 0 <= i < n :: 1 <= s[i] <= size
  {
    if 2 * size > n {
      forall i | 0 <= i < n
        ensures 1 <= s[i] <= size
      {
        ScheduleBounds(shape, size, n, i + 1);
      }
    }
    forall i, j | 0 <= i <= j < n
      ensures s[i] <= s[j]
    {
      ScheduleMonotone(shape, size, n, i + 1, j + 1);
    }
    ScheduleLast(shape, size, n);
  }

  /** A list of target shapes every one of which `resize` accepts. */
  predicate Targets(hs: seq<nat>, ws: seq<nat>) {
    |hs| == |ws| && (forall i | 0 <= i < |hs| :: hs[i] >= 1) && (forall i | 0 <= i < |ws| :: ws[i] >= 1)
  }

  /** Resize X to each target in turn, the first target first. */
  function ResizeChain(be: Backend, X: Field, hs: seq<nat>, ws: seq<nat>): (r: Field)
    requires 1 <= X.c <= 7 && NonEmpty(X) && Targets(hs, ws)
    ensures r.c == X.c && NonEmpty(r)
    ensures |hs| > 0 ==> r.h == hs[|hs| - 1] && r.w == ws[|ws| - 1]
    decreases |hs|
  {
    if |hs| == 0 then X
    else
      var n := |hs| - 1;
      ResizeSpec(be, ResizeChain(be, X, hs[..n], ws[..n]), hs[n], ws[n])
  }

  /** Extending the prefix of a chain by one target is one more resize. */
  lemma ChainStep(be: Backend, X: Field, hs: seq<nat>, ws: seq<nat>, k: nat)
    requires 1 <= X.c <= 7 && NonEmpty(X) && Targets(hs, ws) && k < |hs|
    ensures Targets(hs[..k], ws[..k]) && Targets(hs[..k + 1], ws[..k + 1])
    ensures ResizeChain(be, X, hs[..k + 1], ws[..k + 1])
         == ResizeSpec(be, ResizeChain(be, X, hs[..k], ws[..k]), hs[k], ws[k])
  {
    assert hs[..k + 1][..k] == hs[..k] && ws[..k + 1][..k] == ws[..k];
  }

  /** A chain of resizes keeps the bounds and signs of its input. */
  lemma {:induction false} ChainBounds(be: Backend, X: Field, hs: seq<nat>, ws: seq<nat>, lo: real, hi: real)
    requires Averages(be) && 1 <= X.c <= 7 && NonEmpty(X) && Targets(hs, ws)
    ensures InRange(X, lo, hi) ==> InRange(ResizeChain(be, X, hs, ws), lo, hi)
    ensures Positive(X) ==> Positive(ResizeChain(be, X, hs, ws))
    decreases |hs|
  {
    if |hs| > 0 {
      var n := |hs| - 1;
      ChainBounds(be, X, hs[..n], ws[..n], lo, hi);
      ResizeBounds(be, ResizeChain(be, X, hs[..n], ws[..n]), hs[n], ws[n], lo, hi);
    }
  }

  /** A chain of resizes depends only on the contents of its input. */
  lemma {:induction false} ChainEquiv(be: Backend, X: Field, Y: Field, hs: seq<nat>, ws: seq<nat>)
    requires Extensional(be) && 1 <= X.c <= 7 && NonEmpty(X) && Targets(hs, ws) && Equiv(X, Y)
    ensures Equiv(ResizeChain(be, X, hs, ws), ResizeChain(be, Y, hs, ws))
    decreases |hs|
  {
    if |hs| > 0 {
      var n := |hs| - 1;
      ChainEquiv(be, X, Y, hs[..n], ws[..n]);
      ResizeEquiv(be, ResizeChain(be, X, hs[..n], ws[..n]), ResizeChain(be, Y, hs[..n], ws[..n]), hs[n], ws[n]);
    }
  }

  /** The preconditions of `smooth_upsample`. */
  predicate UpsampleInput(X: Field, th: nat, tw: nat, n: nat) {
    1 <= X.c <= 7 && NonEmpty(X) && n >= 1 && 2 * th > n && 2 * tw > n
  }

  /** `smooth_upsample` as a function: the chain of resizes along the schedules of the two
      dimensions, both computed from the shape of the original input. */
  function SmoothSpec(be: Backend, X: Field, th: nat, tw: nat, n: nat): (r: Field)
    requires UpsampleInput(X, th, tw, n)
    ensures r.h == th && r.w == tw && r.c == X.c
  {
    ResizeChain(be, X, Schedule(X.h, th, n), Schedule(X.w, tw, n))
  }

  /** `smooth_upsample` with n steps: resize n times along the linear schedule, ending at
      exactly th x tw with the channels of the input. */
  method SmoothUpsample(be: Backend, X: Field, th: nat, tw: nat, n: nat) returns (Y: Field)
    requires UpsampleInput(X, th, tw, n)
    ensures Y.h == th && Y.w == tw && Y.c == X.c
    ensures Y == SmoothSpec(be, X, th, tw, n)
  {
    var hs, ws := Schedule(X.h, th, n), Schedule(X.w, tw, n);
    Y := X;
    var step := 0;
    while step < n
      invariant 0 <= step <= n
      invariant Targets(hs[..step], ws[..step])
      invariant Y == ResizeChain(be, X, hs[..step], ws[..step])
    {
      ChainStep(be, X, hs, ws, step);
      Y := Resize(be, Y, hs[step], ws[step]);
      step := step + 1;
    }
    assert hs[..n] == hs && ws[..n] == ws;
  }

  /** With one step, `smooth_upsample` is a single `resize` to the final size. */
  lemma SmoothSingleStep(be: Backend, X: Field, th: nat, tw: nat)
    requires UpsampleInput(X, th, tw, 1)
    ensures SmoothSpec(be, X, th, tw, 1) == ResizeSpec(be, X, th, tw)
  {
    var hs, ws := Schedule(X.h, th, 1), Schedule(X.w, tw, 1);
    assert hs[..0] == [] && ws[..0] == [];
    assert hs[0] == th && ws[0] == tw;
    assert ResizeChain(be, X, hs[..0], ws[..0]) == X;
  }

  /** The upsampler keeps the bounds and signs of its input. */
  lemma SmoothBounds(be: Backend, X: Field, th: nat, tw: nat, n: nat, lo: real, hi: real)
    requires Averages(be) && UpsampleInput(X, th, tw, n)
    ensures InRange(X, lo, hi) ==> InRange(SmoothSpec(be, X, th, tw, n), lo, hi)
    ensures Positive(X) ==> Positive(SmoothSpec(be, X, th, tw, n))
  {
    ChainBounds(be, X, Schedule(X.h, th, n), Schedule(X.w, tw, n), lo, hi);
  }

  /** The upsampler depends only on the contents of its input. */
  lemma SmoothEquiv(be: Backend, X: Field, Y: Field, th: nat, tw: nat, n: nat)
    requires Extensional(be) && UpsampleInput(X, th, tw, n) && Equiv(X, Y)
    ensures Equiv(SmoothSpec(be, X, th, tw, n), SmoothSpec(be, Y, th, tw, n))
  {
    assert SameShape(X, Y);
    ChainEquiv(be, X, Y, Schedule(X.h, th, n), Schedule(X.w, tw, n));
  }
}

=== FILE: reals.dfy ===
/** Small facts about real division, stated once so that the proofs that need them can cite them. */
module Reals {

  lemma DivCancel(a: real, p: real)
    requires p != 0.0
    ensures (a / p) * p == a
  {
  }

  lemma MulNonNegative(a: real, b: real)
    requires a >= 0.0 && b >= 0.0
    ensures a * b >= 0.0
  {
  }

  lemma DivPositive(a: real, p: real)
    requires a > 0.0 && p > 0.0
    ensures a / p > 0.0
  {
  }

  lemma DivNonNegative(a: real, p: real)
    requires a >= 0.0 && p > 0.0
    ensures a / p >= 0.0
  {
  }

  /** x/p <= y/q whenever x q <= y p, for positive p and q. */
  lemma QuotientLe(x: real, p: real, y: real, q: real)
    requires p > 0.0 && q > 0.0 && x * q <= y * p
    ensures x / p <= y / q
  {
    DivCancel(x, p);
    DivCancel(y, q);
    assert (x / p - y / q) * (p * q) == x * q - y * p;
  }

  /** a/p <= 1 when a <= p, for positive p. */
  lemma DivAtMostOne(a: real, p: real)
    requires p > 0.0 && a <= p
    ensures a / p <= 1.0
  {
  }

  /** a u = c with a nonzero determines u. */
  lemma SolveFactor(a: real, u: real, c: real)
    requires a != 0.0 && a * u == c
    ensures u == c / a
  {
    DivCancel(c, a);
    assert (u - c / a) * a == 0.0;
  }

  /** A nonzero factor cancels: x d = n with d = k and n = v k gives x = v. */
  lemma CancelFactor(x: real, v: real, k: real, d: real, n: real)
    requires k != 0.0 && x * d == n && d == k && n == v * k
    ensures x == v
  {
    assert (x - v) * k == 0.0;
  }

  /** A product with a positive first factor is positive only if the second factor is. */
  lemma SignOfFactor(a: real, b: real)
    requires a > 0.0 && a * b > 0.0
    ensures b > 0.0
  {
  }

  function Square(a: real): real {
    a * a
  }

  lemma SquareNonNegative(e: real, q: real)
    requires q == e * e
    ensures q >= 0.0
  {
  }

  lemma SquareNonZero(e: real, q: real)
    requires q == e * e && e != 0.0
    ensures q != 0.0
  {
    if q == 0.0 {
      SolveFactor(e, e, q);
    }
  }

  lemma SquarePositive(a: real)
    requires a != 0.0
    ensures Square(a) > 0.0
  {
    SquareNonNegative(a, Square(a));
    SquareNonZero(a, Square(a));
  }
}

=== FILE: results.dfy ===
/** The ways the guided upsampler can fail, and the result type that carries them. */
module Results {
  import opened Fields

  /** `NotThreeChannels`: an `assert ...shape[-1] == 3` fails.
      `ConfidenceShape`: the `assert confidence.shape == source.shape` fails.
      `ShapeMismatch`: numpy cannot broadcast two arrays of different shapes together.
      `EmptyCoarseGrid`: the coarse size has a 0 in it; the first weighted downsample then
      asks `resize` for an empty size, which `cv2.resize` rejects, or, when both are 0, the
      halving loop of `resize_helper` never ends.
      `FlatCoarseGrid`: the coarse grid has a single row or column, which the `.squeeze()` at
      the end of `solve_image_ldl3` drops, so the affine model can no longer be resized or
      broadcast against the reference.
      `Singular`: some pixel of the regularised covariance has a zero LDL^T pivot, where the
      source divides by zero and carries NaN or infinity on; it holds the covariance. */
  datatype Error = NotThreeChannels | ConfidenceShape | ShapeMismatch | EmptyCoarseGrid | FlatCoarseGrid | Singular(covariance: Field)

  datatype Result<T> = Ok(value: T) | Err(error: Error)

  datatype Option<T> = None | Some(value: T)
}

=== FILE: rounding.dfy ===
/** `np.round` on exact reals: round to the nearest integer, halves to the even neighbour. */
module Rounding {

  predicate IsEven(n: int) {
    n % 2 == 0
  }

  /** The nearest integer to x; at an exact half the even one of the two neighbours. */
  function RoundHalfEven(x: real): (r: int)
    ensures x - 0.5 <= r as real <= x + 0.5
    ensures (r as real == x - 0.5 || r as real == x + 0.5) ==> IsEven(r)
  {
    var f := x.Floor;
    var d := x - f as real;
    if d < 0.5 then f
    else if d > 0.5 then f + 1
    else if IsEven(f) then f
    else f + 1
  }

  /** The contract pins the result down: an integer within 1/2 of x, even on a tie, is the
      rounded value. */
  lemma RoundCharacterisation(x: real, n: int)
    requires x - 0.5 <= n as real <= x + 0.5
    requires (n as real == x - 0.5 || n as real == x + 0.5) ==> IsEven(n)
    ensures n == RoundHalfEven(x)
  {
    var r := RoundHalfEven(x);
    if n != r {
      assert false;
    }
  }

  /** Integers are left alone. */
  lemma RoundInteger(n: int)
    ensures RoundHalfEven(n as real) == n
  {
    RoundCharacterisation(n as real, n);
  }

  /** Rounding is monotone. */
  lemma RoundMonotone(x: real, y: real)
    requires x <= y
    ensures RoundHalfEven(x) <= RoundHalfEven(y)
  {
    if x < y {
      var a, b := RoundHalfEven(x), RoundHalfEven(y);
      assert (a as real) < (b as real) + 1.0;
    }
  }

  /** A value above 1/2 rounds to at least 1. */
  lemma RoundAtLeastOne(x: real)
    requires x > 0.5
    ensures RoundHalfEven(x) >= 1
  {
  }

  /** Rounding a non-negative value, as `.round().astype(int)` does for a shape. */
  function RoundNat(x: real): (r: nat)
    requires x >= 0.0
    ensures r == RoundHalfEven(x)
  {
    RoundHalfEven(x)
  }
}

=== FILE: sym3.dfy ===
/** Per-pixel 3x3 algebra of the guided upsampler: symmetric matrices packed as their upper
    triangle, the outer product, diagonal regularisation and the unpivoted LDL^T solve
    (skyseg.py, `outer_product_images`, `solve_image_ldl3` and the regularisation step of
    `guided_upsample`). */
module Sym3 {
  import opened Reals

  /** A 3-vector: one value per reference channel. */
  datatype Vec3 = Vec3(v1: real, v2: real, v3: real)

  /** A symmetric 3x3 matrix packed as its six upper-triangular entries, in the order
      `np.triu_indices(3)` enumerates them: (0,0), (0,1), (0,2), (1,1), (1,2), (2,2). */
  datatype Sym3 = Sym3(a11: real, a12: real, a13: real, a22: real, a23: real, a33: real)

  const Zero3: Vec3 := Vec3(0.0, 0.0, 0.0)
  const ZeroSym: Sym3 := Sym3(0.0, 0.0, 0.0, 0.0, 0.0, 0.0)

  /** Component i (0-based) of a vector. */
  function Comp(x: Vec3, i: nat): real
    requires i < 3
  {
    if i == 0 then x.v1 else if i == 1 then x.v2 else x.v3
  }

  /** Row and column of the k-th packed channel, as `np.triu_indices(3)` lists them. */
  function TriuRow(k: nat): nat
    requires k < 6
  {
    [0, 0, 0, 1, 1, 2][k]
  }

  function TriuCol(k: nat): nat
    requires k < 6
  {
    [0, 1, 2, 1, 2, 2][k]
  }

  /** The packed channel that holds entry (i, j) of the upper triangle. */
  function PackedIndex(i: nat, j: nat): (k: nat)
    requires i <= j < 3
    ensures k < 6 && TriuRow(k) == i && TriuCol(k) == j
  {
    if i == 0 then j else if i == 1 then j + 2 else 5
  }

  /** The triangular enumeration visits every upper-triangular position exactly once:
      PackedIndex and (TriuRow, TriuCol) are inverse to each other. */
  lemma TriuEnumeration()
    ensures forall k: nat | k < 6 :: TriuRow(k) <= TriuCol(k) < 3 && PackedIndex(TriuRow(k), TriuCol(k)) == k
    ensures forall i: nat, j: nat | i <= j < 3 :: TriuRow(PackedIndex(i, j)) == i && TriuCol(PackedIndex(i, j)) == j
  {
    forall k: nat | k < 6
      ensures TriuRow(k) <= TriuCol(k) < 3 && PackedIndex(TriuRow(k), TriuCol(k)) == k
    {
      assert k == 0 || k == 1 || k == 2 || k == 3 || k == 4 || k == 5;
    }
  }

  /** The k-th packed channel of a matrix. */
  function Packed(m: Sym3, k: nat): real
    requires k < 6
  {
    [m.a11, m.a12, m.a13, m.a22, m.a23, m.a33][k]
  }

  /** Entry (i, j) of the full symmetric matrix a packed value stands for. */
  function Entry(m: Sym3, i: nat, j: nat): real
    requires i < 3 && j < 3
  {
    if i <= j then Packed(m, PackedIndex(i, j)) else Packed(m, PackedIndex(j, i))
  }

  /** The packed channels are exactly the matrix entries their triangular position names. */
  lemma PackedIsEntry(m: Sym3, k: nat)
    requires k < 6
    ensures TriuRow(k) <= TriuCol(k) < 3
    ensures Packed(m, k) == Entry(m, TriuRow(k), TriuCol(k))
  {
    TriuEnumeration();
  }

  /** Channels 0, 3 and 5 are exactly the diagonal ones. */
  lemma DiagonalChannels(k: nat)
    requires k < 6
    ensures TriuRow(k) == TriuCol(k) <==> (k == 0 || k == 3 || k == 5)
  {
  }

  /** The outer product x y^T restricted to its upper triangle, packed per `np.triu_indices(3)`. */
  function Outer(x: Vec3, y: Vec3): (r: Sym3)
    ensures forall k: nat | k < 6 :: Packed(r, k) == Comp(x, TriuRow(k)) * Comp(y, TriuCol(k))
  {
    Sym3(x.v1 * y.v1, x.v1 * y.v2, x.v1 * y.v3, x.v2 * y.v2, x.v2 * y.v3, x.v3 * y.v3)
  }

  /** Unpacking the packed outer product of x with itself gives back all of x x^T,
      including the lower triangle. */
  lemma OuterSelfReassembles(x: Vec3)
    ensures forall i: nat, j: nat | i < 3 && j < 3 :: Entry(Outer(x, x), i, j) == Comp(x, i) * Comp(x, j)
  {
    forall i: nat, j: nat | i < 3 && j < 3
      ensures Entry(Outer(x, x), i, j) == Comp(x, i) * Comp(x, j)
    {
      if i <= j {
        var k := PackedIndex(i, j);
        assert Packed(Outer(x, x), k) == Comp(x, i) * Comp(x, j);
      } else {
        var k := PackedIndex(j, i);
        assert Packed(Outer(x, x), k) == Comp(x, j) * Comp(x, i);
      }
    }
  }

  /** The worked example: x = [1, 2, 3] packs to [1, 2, 3, 4, 6, 9]. */
  lemma OuterExample()
    ensures Outer(Vec3(1.0, 2.0, 3.0), Vec3(1.0, 2.0, 3.0)) == Sym3(1.0, 2.0, 3.0, 4.0, 6.0, 9.0)
  {
  }

  /** The matrix-vector product A x of the symmetric matrix with a vector. */
  function MatVec(m: Sym3, x: Vec3): (r: Vec3)
    ensures forall i: nat | i < 3 ::
              Comp(r, i) == Entry(m, i, 0) * x.v1 + Entry(m, i, 1) * x.v2 + Entry(m, i, 2) * x.v3
  {
    Vec3(m.a11 * x.v1 + m.a12 * x.v2 + m.a13 * x.v3,
         m.a12 * x.v1 + m.a22 * x.v2 + m.a23 * x.v3,
         m.a13 * x.v1 + m.a23 * x.v2 + m.a33 * x.v3)
  }

  /** The regularisation of `guided_upsample`: `eps_luma**2` is added to channel 0 and
      `eps_chroma**2` to channels 3 and 5. Read as a matrix, that adds
      diag(eps_luma^2, eps_chroma^2, eps_chroma^2) and leaves every off-diagonal entry alone. */
  function Regularize(m: Sym3, epsLuma: real, epsChroma: real): (r: Sym3)
    ensures forall i: nat, j: nat | i < 3 && j < 3 ::
              Entry(r, i, j) == Entry(m, i, j) + (if i != j then 0.0 else if i == 0 then Square(epsLuma) else Square(epsChroma))
    ensures forall k: nat | k < 6 && TriuRow(k) != TriuCol(k) :: Packed(r, k) == Packed(m, k)
  {
    Sym3(m.a11 + Square(epsLuma), m.a12, m.a13, m.a22 + Square(epsChroma), m.a23, m.a33 + Square(epsChroma))
  }

  // The pivots and multipliers of the unpivoted LDL^T factorisation A = L D L^T, named as in
  // `solve_image_ldl3`. Each is defined when the pivots before it are nonzero.

  function D1(m: Sym3): real { m.a11 }

  /** l12 = A12 / d1: the multiplier that makes d1 l12 the (1, 2) entry of L D L^T. */
  function L12(m: Sym3): (r: real)
    requires D1(m) != 0.0
    ensures r * D1(m) == m.a12
  {
    DivCancel(m.a12, D1(m));
    m.a12 / D1(m)
  }

  /** l13 = A13 / d1: the multiplier that makes d1 l13 the (1, 3) entry of L D L^T. */
  function L13(m: Sym3): (r: real)
    requires D1(m) != 0.0
    ensures r * D1(m) == m.a13
  {
    DivCancel(m.a13, D1(m));
    m.a13 / D1(m)
  }

  /** The second pivot; d1 d2 is the leading 2x2 minor. */
  function D2(m: Sym3): (r: real)
    requires D1(m) != 0.0
    ensures D1(m) * r == Minor2(m)
  {
    var l := L12(m);
    assert m.a11 * (l * m.a12) == (l * m.a11) * m.a12;
    m.a22 - l * m.a12
  }

  /** l23 = (A23 - l13 A12) / d2: the multiplier that completes the (2, 3) entry. */
  function L23(m: Sym3): (r: real)
    requires D1(m) != 0.0 && D2(m) != 0.0
    ensures r * D2(m) == m.a23 - L13(m) * m.a12
  {
    DivCancel(m.a23 - L13(m) * m.a12, D2(m));
    (m.a23 - L13(m) * m.a12) / D2(m)
  }

  /** The third pivot; d1 d2 d3 is the determinant. */
  function D3(m: Sym3): (r: real)
    requires D1(m) != 0.0 && D2(m) != 0.0
    ensures D1(m) * D2(m) * r == Det(m)
  {
    PivotProduct(m.a11, m.a12, m.a13, m.a22, m.a23, m.a33, L12(m), L13(m), D2(m), L23(m));
    m.a33 - L13(m) * m.a13 - L23(m) * L23(m) * D2(m)
  }

  /** Over free variables: once the multipliers and the second pivot meet their defining
      equations, d1 d2 d3 is the determinant. */
  lemma PivotProduct(a11: real, a12: real, a13: real, a22: real, a23: real, a33: real,
                     l12: real, l13: real, d2: real, l23: real)
    requires a11 != 0.0 && l12 * a11 == a12 && l13 * a11 == a13
    requires d2 == a22 - l12 * a12 && d2 != 0.0 && l23 * d2 == a23 - l13 * a12
    ensures a11 * d2 * (a33 - l13 * a13 - l23 * l23 * d2)
         == a11 * (a22 * a33 - a23 * a23) - a12 * (a12 * a33 - a23 * a13) + a13 * (a12 * a23 - a22 * a13)
  {
    var d1 := a11;
    var d3 := a33 - l13 * a13 - l23 * l23 * d2;
    var e := a23 - l13 * a12;
    var minor := a11 * a22 - a12 * a12;
    assert d1 * d2 == minor by {
      assert d1 * d2 == d1 * a22 - (l12 * d1) * a12;
    }
    assert d1 * d2 * d3 == d1 * d2 * (a33 - l13 * a13) - d1 * (l23 * d2) * (l23 * d2) by {
      assert d1 * d2 * (l23 * l23 * d2) == d1 * (l23 * d2) * (l23 * d2);
    }
    assert d1 * e == d1 * a23 - a13 * a12;
    assert d1 * d2 * d3 == minor * (a33 - l13 * a13) - d1 * e * e;
    assert minor * (l13 * a13) == d2 * a13 * a13;
    assert d1 * e * e == e * (d1 * a23 - a13 * a12);
  }

  /** All three pivots are nonzero, so every division of the solve is defined. */
  predicate Solvable(m: Sym3) {
    D1(m) != 0.0 && D2(m) != 0.0 && D3(m) != 0.0
  }

  /** Leading principal minors of the matrix. */
  function Minor2(m: Sym3): real {
    m.a11 * m.a22 - m.a12 * m.a12
  }

  function Det(m: Sym3): real {
    m.a11 * (m.a22 * m.a33 - m.a23 * m.a23)
    - m.a12 * (m.a12 * m.a33 - m.a23 * m.a13)
    + m.a13 * (m.a12 * m.a23 - m.a22 * m.a13)
  }

  /** The factorisation behind the solver, entry by entry: A = L D L^T with L unit lower
      triangular (multipliers l12, l13, l23) and D = diag(d1, d2, d3). */
  lemma LdlFactorisation(m: Sym3)
    requires D1(m) != 0.0 && D2(m) != 0.0
    ensures m.a12 == L12(m) * D1(m)
    ensures m.a13 == L13(m) * D1(m)
    ensures m.a22 == L12(m) * L12(m) * D1(m) + D2(m)
    ensures m.a23 == L13(m) * L12(m) * D1(m) + L23(m) * D2(m)
    ensures m.a33 == L13(m) * L13(m) * D1(m) + L23(m) * L23(m) * D2(m) + D3(m)
  {
    DivCancel(m.a12, D1(m));
    DivCancel(m.a13, D1(m));
    DivCancel(m.a23 - L13(m) * m.a12, D2(m));
    assert L12(m) * m.a12 == L12(m) * (L12(m) * D1(m));
    assert L13(m) * m.a12 == L13(m) * (L12(m) * D1(m));
  }

  /** A x = L (D (L^T x)) written out row by row, for the factorisation of m. */
  lemma RowsThroughFactors(m: Sym3, x: Vec3)
    requires D1(m) != 0.0 && D2(m) != 0.0
    ensures MatVec(m, x).v1 == D1(m) * (x.v1 + L12(m) * x.v2 + L13(m) * x.v3)
    ensures MatVec(m, x).v2 == L12(m) * (D1(m) * (x.v1 + L12(m) * x.v2 + L13(m) * x.v3))
                               + D2(m) * (x.v2 + L23(m) * x.v3)
    ensures MatVec(m, x).v3 == L13(m) * (D1(m) * (x.v1 + L12(m) * x.v2 + L13(m) * x.v3))
                               + L23(m) * (D2(m) * (x.v2 + L23(m) * x.v3)) + D3(m) * x.v3
  {
    LdlFactorisation(m);
    RingRows(D1(m), L12(m), L13(m), L23(m), D2(m), D3(m), x.v1, x.v2, x.v3);
  }

  /** The ring identity behind RowsThroughFactors, over free variables. */
  lemma RingRows(d1: real, l12: real, l13: real, l23: real, d2: real, d3: real, x1: real, x2: real, x3: real)
    ensures d1 * x1 + (l12 * d1) * x2 + (l13 * d1) * x3 == d1 * (x1 + l12 * x2 + l13 * x3)
    ensures (l12 * d1) * x1 + (l12 * l12 * d1 + d2) * x2 + (l13 * l12 * d1 + l23 * d2) * x3
         == l12 * (d1 * (x1 + l12 * x2 + l13 * x3)) + d2 * (x2 + l23 * x3)
    ensures (l13 * d1) * x1 + (l13 * l12 * d1 + l23 * d2) * x2 + (l13 * l13 * d1 + l23 * l23 * d2 + d3) * x3
         == l13 * (d1 * (x1 + l12 * x2 + l13 * x3)) + l23 * (d2 * (x2 + l23 * x3)) + d3 * x3
  {
  }

  /** The arithmetic of `solve_image_ldl3` for one pixel: forward substitution through L,
      division by the pivots, back substitution through L^T. The result meets the three
      triangular systems of the factorisation: d1 (L^T x)_1 = y1, d2 (L^T x)_2 = y2 and
      d3 x3 = y3, where y is b eliminated through L. */
  function Substitute(m: Sym3, b: Vec3): (x: Vec3)
    requires Solvable(m)
    ensures D1(m) * (x.v1 + L12(m) * x.v2 + L13(m) * x.v3) == b.v1
    ensures D2(m) * (x.v2 + L23(m) * x.v3) == b.v2 - L12(m) * b.v1
    ensures D3(m) * x.v3 == b.v3 - L13(m) * b.v1 - L23(m) * (b.v2 - L12(m) * b.v1)
  {
    var y2 := b.v2 - L12(m) * b.v1;
    BackSubstitution(D1(m), D2(m), D3(m), L12(m), L13(m), L23(m), b.v1, y2, b.v3 - L13(m) * b.v1 - L23(m) * y2);
    Substitution(D1(m), D2(m), D3(m), L12(m), L13(m), L23(m), b.v1, b.v2, b.v3)
  }

  /** The same arithmetic over free pivots and multipliers. */
  function Substitution(d1: real, d2: real, d3: real, l12: real, l13: real, l23: real,
                        b1: real, b2: real, b3: real): Vec3
    requires d1 != 0.0 && d2 != 0.0 && d3 != 0.0
  {
    var y2 := b2 - l12 * b1;
    BackSubstitute(d1, d2, d3, l12, l13, l23, b1, y2, b3 - l13 * b1 - l23 * y2)
  }

  /** Division by the pivots and back substitution through L^T, from the eliminated
      right-hand sides y. */
  function BackSubstitute(d1: real, d2: real, d3: real, l12: real, l13: real, l23: real,
                          y1: real, y2: real, y3: real): Vec3
    requires d1 != 0.0 && d2 != 0.0 && d3 != 0.0
  {
    var x3 := y3 / d3;
    var x2 := y2 / d2 - l23 * x3;
    var x1 := y1 / d1 - l12 * x2 - l13 * x3;
    Vec3(x1, x2, x3)
  }

  /** Back substitution through D and L^T, over free variables. */
  lemma BackSubstitution(d1: real, d2: real, d3: real, l12: real, l13: real, l23: real,
                         y1: real, y2: real, y3: real)
    requires d1 != 0.0 && d2 != 0.0 && d3 != 0.0
    ensures var x := BackSubstitute(d1, d2, d3, l12, l13, l23, y1, y2, y3);
            && d1 * (x.v1 + l12 * x.v2 + l13 * x.v3) == y1
            && d2 * (x.v2 + l23 * x.v3) == y2
            && d3 * x.v3 == y3
  {
    DivCancel(y1, d1);
    DivCancel(y2, d2);
    DivCancel(y3, d3);
  }

  /** `solve_image_ldl3` for one pixel. Its result solves A x = b. */
  function Solve(m: Sym3, b: Vec3): (x: Vec3)
    requires Solvable(m)
    ensures MatVec(m, x) == b
  {
    var x := Substitute(m, b);
    RowsThroughFactors(m, x);
    x
  }

  /** The solution is unique: any x with A x = b is the one `Solve` returns. */
  lemma SolveUnique(m: Sym3, b: Vec3, z: Vec3)
    requires Solvable(m) && MatVec(m, z) == b
    ensures z == Solve(m, b)
  {
    RowsThroughFactors(m, z);
    FactorsUnique(D1(m), D2(m), D3(m), L12(m), L13(m), L23(m), z.v1, z.v2, z.v3, b.v1, b.v2, b.v3);
    assert z == Vec3(z.v1, z.v2, z.v3);
  }

  /** Over free variables: the rows of L (D (L^T z)) = b leave z only the value that forward
      and back substitution compute. */
  lemma FactorsUnique(d1: real, d2: real, d3: real, l12: real, l13: real, l23: real,
                      z1: real, z2: real, z3: real, b1: real, b2: real, b3: real)
    requires d1 != 0.0 && d2 != 0.0 && d3 != 0.0
    requires b1 == d1 * (z1 + l12 * z2 + l13 * z3)
    requires b2 == l12 * (d1 * (z1 + l12 * z2 + l13 * z3)) + d2 * (z2 + l23 * z3)
    requires b3 == l13 * (d1 * (z1 + l12 * z2 + l13 * z3)) + l23 * (d2 * (z2 + l23 * z3)) + d3 * z3
    ensures Vec3(z1, z2, z3) == Substitution(d1, d2, d3, l12, l13, l23, b1, b2, b3)
  {
    ForwardElimination(d1, l12, l13, l23, d2, d3, z1, z2, z3, b1, b2, b3);
    var y2 := b2 - l12 * b1;
    var y3 := b3 - l13 * b1 - l23 * y2;
    BackSubstitutionUnique(d1, d2, d3, l12, l13, l23, b1, y2, y3, z1, z2, z3);
  }

  /** Forward elimination through L, over free variables: the rows of L (D (L^T z)) = b give
      the triangular systems in the eliminated right-hand sides. */
  lemma ForwardElimination(d1: real, l12: real, l13: real, l23: real, d2: real, d3: real,
                           z1: real, z2: real, z3: real, b1: real, b2: real, b3: real)
    requires b1 == d1 * (z1 + l12 * z2 + l13 * z3)
    requires b2 == l12 * (d1 * (z1 + l12 * z2 + l13 * z3)) + d2 * (z2 + l23 * z3)
    requires b3 == l13 * (d1 * (z1 + l12 * z2 + l13 * z3)) + l23 * (d2 * (z2 + l23 * z3)) + d3 * z3
    ensures d2 * (z2 + l23 * z3) == b2 - l12 * b1
    ensures d3 * z3 == b3 - l13 * b1 - l23 * (b2 - l12 * b1)
  {
  }

  /** The triangular systems have only the back-substituted solution, over free variables. */
  lemma BackSubstitutionUnique(d1: real, d2: real, d3: real, l12: real, l13: real, l23: real,
                               y1: real, y2: real, y3: real, z1: real, z2: real, z3: real)
    requires d1 != 0.0 && d2 != 0.0 && d3 != 0.0
    requires d1 * (z1 + l12 * z2 + l13 * z3) == y1
    requires d2 * (z2 + l23 * z3) == y2
    requires d3 * z3 == y3
    ensures Vec3(z1, z2, z3) == BackSubstitute(d1, d2, d3, l12, l13, l23, y1, y2, y3)
  {
    SolveFactor(d3, z3, y3);
    SolveFactor(d2, z2 + l23 * z3, y2);
    SolveFactor(d1, z1 + l12 * z2 + l13 * z3, y1);
  }

  /** Solvability is the non-vanishing of the leading principal minors, so a matrix whose
      leading minors are all positive (a positive-definite one) is always solvable, with
      positive pivots. */
  lemma SolvableIffMinors(m: Sym3)
    ensures Solvable(m) <==> (m.a11 != 0.0 && Minor2(m) != 0.0 && Det(m) != 0.0)
    ensures m.a11 > 0.0 && Minor2(m) > 0.0 && Det(m) > 0.0 ==>
              Solvable(m) && D1(m) > 0.0 && D2(m) > 0.0 && D3(m) > 0.0
  {
    if m.a11 != 0.0 {
      if m.a11 > 0.0 && Minor2(m) > 0.0 {
        SignOfFactor(D1(m), D2(m));
        if Det(m) > 0.0 {
          SignOfFactor(D1(m) * D2(m), D3(m));
        }
      }
    }
  }

  /** A region where the guide is flat and uncorrelated with the source has zero covariance
      and zero cross-statistic; once regularised, the fit there is solvable and its affine
      coefficients are zero. */
  lemma FlatRegionFit(epsLuma: real, epsChroma: real)
    requires epsLuma != 0.0 && epsChroma != 0.0
    ensures Solvable(Regularize(ZeroSym, epsLuma, epsChroma))
    ensures Solve(Regularize(ZeroSym, epsLuma, epsChroma), Zero3) == Zero3
  {
    var m := Regularize(ZeroSym, epsLuma, epsChroma);
    SquarePositive(epsLuma);
    SquarePositive(epsChroma);
    assert m == Sym3(Square(epsLuma), 0.0, 0.0, Square(epsChroma), 0.0, Square(epsChroma));
    assert D2(m) == Square(epsChroma);
    assert D3(m) == Square(epsChroma);
    SolveUnique(m, Zero3, Zero3);
  }
}

=== FILE: weighted.dfy ===
/** Confidence-weighted downsampling (skyseg.py, `weighted_downsample`): the resized product of
    the field with the confidence, divided by the resized confidence. */
module Weighted {
  import opened Fields
  import opened Reals
  import opened Rounding
  import opened Pyramid
  import opened Results

  /** The two ways of naming the output size: a scale the input's shape is divided by
      (`scale`), or the size itself (`target_size`). */
  datatype Target = ByScale(scale: real) | BySize(h: nat, w: nat)

  predicate ValidTarget(t: Target) {
    t.ByScale? ==> t.scale > 0.0
  }

  /** The output size: `target_size`, or the input's shape divided by `scale` and rounded. */
  function TargetOf(X: Field, t: Target): (r: (nat, nat))
    requires ValidTarget(t)
    ensures t.BySize? ==> r == (t.h, t.w)
    ensures t.ByScale? ==> X.h as real / t.scale - 0.5 <= r.0 as real <= X.h as real / t.scale + 0.5
    ensures t.ByScale? ==> X.w as real / t.scale - 0.5 <= r.1 as real <= X.w as real / t.scale + 0.5
    ensures t.ByScale? && (r.0 as real == X.h as real / t.scale - 0.5 || r.0 as real == X.h as real / t.scale + 0.5)
            ==> IsEven(r.0)
    ensures t.ByScale? && (r.1 as real == X.w as real / t.scale - 0.5 || r.1 as real == X.w as real / t.scale + 0.5)
            ==> IsEven(r.1)
  {
    match t
    case BySize(h, w) => (h, w)
    case ByScale(s) =>
      DivNonNegative(X.h as real, s);
      DivNonNegative(X.w as real, s);
      (RoundNat(X.h as real / s), RoundNat(X.w as real / s))
  }

  /** `numerator / denom` with the one-channel denominator broadcast over the channels: the
      result times the denominator is the numerator, on every channel. Where the denominator
      is 0 the source would produce an infinity or NaN; the 0 there is a placeholder, and
      the precondition of `WeightedDownsample` keeps every denominator it uses positive. */
  function Quotient(N: Field, D: Field): (r: Field)
    requires N.h == D.h && N.w == D.w
    ensures r.h == N.h && r.w == N.w && r.c == N.c
    ensures forall i: nat, j: nat, k: nat | i < N.h && j < N.w && k < N.c ::
              if D.at(i, j, 0) == 0.0 then r.at(i, j, k) == 0.0 else r.at(i, j, k) * D.at(i, j, 0) == N.at(i, j, k)
  {
    Field(N.h, N.w, N.c, (i: nat, j: nat, k: nat) => if D.at(i, j, 0) == 0.0 then 0.0 else N.at(i, j, k) / D.at(i, j, 0))
  }

  /** The field after the alignment step: resized to the confidence's shape when it is wider
      than the confidence (only the widths are compared), unchanged otherwise. */
  function Aligned(be: Backend, X: Field, conf: Field): (r: Field)
    requires 1 <= X.c <= 7 && NonEmpty(X) && NonEmpty(conf)
    ensures r.c == X.c && NonEmpty(r)
    ensures X.w > conf.w ==> r.h == conf.h && r.w == conf.w
    ensures X.w <= conf.w ==> r == X
  {
    if X.w > conf.w then ResizeSpec(be, X, conf.h, conf.w) else X
  }

  /** What `weighted_downsample` needs of its inputs: a field of 1 to 7 channels, a scalar
      confidence, both non-empty, and an output size of at least 1 x 1. */
  predicate WeightedInput(X: Field, conf: Field, t: Target) {
    && 1 <= X.c <= 7 && NonEmpty(X) && conf.c == 1 && NonEmpty(conf) && ValidTarget(t)
    && TargetOf(X, t).0 >= 1 && TargetOf(X, t).1 >= 1
  }

  /** `weighted_downsample`. The output size is computed from the input before alignment.
      The result is the weighted mean of the aligned field under the confidence, in the sense
      that the result times the resized confidence is the resized product; it fails exactly
      when the aligned field and the confidence still differ in shape. */
  function WeightedDownsample(be: Backend, X: Field, conf: Field, t: Target): (r: Result<Field>)
    requires WeightedInput(X, conf, t)
    requires Positive(ResizeSpec(be, conf, TargetOf(X, t).0, TargetOf(X, t).1))
    ensures r.Err? <==> X.w <= conf.w && (X.h != conf.h || X.w != conf.w)
    ensures r.Err? ==> r.error == ShapeMismatch
    ensures r.Ok? ==> r.value.h == TargetOf(X, t).0 && r.value.w == TargetOf(X, t).1 && r.value.c == X.c
    ensures r.Ok? ==>
              var A := Aligned(be, X, conf);
              var N := ResizeSpec(be, MulScalar(A, conf), TargetOf(X, t).0, TargetOf(X, t).1);
              var D := ResizeSpec(be, conf, TargetOf(X, t).0, TargetOf(X, t).1);
              forall i: nat, j: nat, k: nat | i < N.h && j < N.w && k < N.c ::
                r.value.at(i, j, k) * D.at(i, j, 0) == N.at(i, j, k)
  {
    var (th, tw) := TargetOf(X, t);
    var A := Aligned(be, X, conf);
    if A.h != conf.h || A.w != conf.w then Err(ShapeMismatch)
    else
      var N := ResizeSpec(be, MulScalar(A, conf), th, tw);
      var D := ResizeSpec(be, conf, th, tw);
      Ok(Quotient(N, D))
  }

  /** Dividing by a denominator of 1 everywhere changes nothing. */
  lemma QuotientByOne(N: Field, D: Field)
    requires N.h == D.h && N.w == D.w && D.c == 1 && InRange(D, 1.0, 1.0)
    ensures Equiv(Quotient(N, D), N)
  {
    forall i: nat, j: nat, k: nat | i < N.h && j < N.w && k < N.c
      ensures Quotient(N, D).at(i, j, k) == N.at(i, j, k)
    {
      assert D.at(i, j, 0) == 1.0;
    }
  }

  /** A confidence of 1 everywhere resizes to a positive one. */
  lemma ResizedOnes(be: Backend, conf: Field, th: nat, tw: nat)
    requires Averages(be) && conf.c == 1 && NonEmpty(conf) && th >= 1 && tw >= 1 && InRange(conf, 1.0, 1.0)
    ensures InRange(ResizeSpec(be, conf, th, tw), 1.0, 1.0)
    ensures Positive(ResizeSpec(be, conf, th, tw))
  {
    var D := ResizeSpec(be, conf, th, tw);
    ResizeBounds(be, conf, th, tw, 1.0, 1.0);
    forall i: nat, j: nat, k: nat | i < D.h && j < D.w && k < D.c
      ensures 0.0 < D.at(i, j, k)
    {
      assert D.at(i, j, k) == 1.0;
    }
  }

  /** With a confidence of 1 everywhere the weighting drops out: the result holds the plain
      resize of the aligned field. */
  lemma WeightedUnitWeights(be: Backend, X: Field, conf: Field, t: Target)
    requires Averages(be) && Extensional(be) && WeightedInput(X, conf, t) && InRange(conf, 1.0, 1.0)
    ensures Positive(ResizeSpec(be, conf, TargetOf(X, t).0, TargetOf(X, t).1))
    ensures var r := WeightedDownsample(be, X, conf, t);
            r.Ok? ==> Equiv(r.value, ResizeSpec(be, Aligned(be, X, conf), TargetOf(X, t).0, TargetOf(X, t).1))
  {
    var (th, tw) := TargetOf(X, t);
    ResizedOnes(be, conf, th, tw);
    var A := Aligned(be, X, conf);
    if A.h == conf.h && A.w == conf.w {
      var D := ResizeSpec(be, conf, th, tw);
      var N := ResizeSpec(be, MulScalar(A, conf), th, tw);
      MulScalarByOne(A, conf);
      ResizeEquiv(be, MulScalar(A, conf), A, th, tw);
      QuotientByOne(N, D);
      EquivTransitive(Quotient(N, D), N, ResizeSpec(be, A, th, tw));
    }
  }
}
